=== FILE: README.md ===
# go.osm protobuf marshaling, integer core, in Dafny

This project models the integer-level logic of `marshal.go` in the `osm` Go package. That file converts OSM
nodes, ways and relations to and from their `osmpb` protobuf messages. The modelled logic is:

- **The delta codec.** `encodeInt32/64` and `decodeInt32/64` replace each column element by its difference
  from the previous one, and decoding takes the running sum. Go's wrapping `int32`/`int64` arithmetic is
  written out explicitly (`IntWidth.Wrap`).
- **The dense node batch.**
  - `denseNodesValues` and `nodesChangesetInfo` build the plain columns.
  - `encodeNodesTags` writes the flat tag column: one 0-terminated run of string-table indices per node.
  - `marshalNodes` writes the batch. `unmarshalNodes` reads it back with one tag cursor shared by all nodes.
- **Way references.** `encodeWayNodeIDs`/`decodeWayNodeIDs` handle the IDs. `encodeDenseWayNodes`/
  `decodeDenseWayNodes` handle the optional snapshot block. That block is attached only when the first
  reference carries a version.
- **Relation members.**
  - The member loop of `marshalRelation` writes the role, reference and kind columns. `decodeMembers` reads them.
  - `encodeDenseMembers`/`decodeDenseMembers` handle the snapshot block. Its coordinates are present only
    when some member is a node.
  - `memberTypeMap`/`memberTypeMapRev` convert the member kinds.
- **The timestamp sentinel codec.** `timeToUnix`, `timeToUnixPointer`, `unixToTime` and `unixToTimePointer`
  use 0 (or nil) for "no time".
- **The single-entity marshalers** `marshalNode/Way/Relation` and `unmarshalNode/Way/Relation`. With a
  changeset context (`cs != nil`), decoding substitutes the context's changeset ID, user ID and user name.

Modules follow those components:

| module | contents |
|---|---|
| `IntWidth` | Go integer widths |
| `Delta` | the delta codec |
| `Timestamps` | the timestamp sentinel codec |
| `StringTable` | the string table shared by encode and decode |
| `Osm` | the entities |
| `Wire` | the `osmpb` columns |
| `MemberTypes` | the member-kind maps |
| `TagRuns` | the tag column |
| `Members` | way references and relation members |
| `DenseNodes` | the dense node batch |
| `Entities` | the single-entity marshalers |

Timestamps are represented by their Unix seconds. Go's zero `time.Time` is `-62135596800` seconds
(`Timestamps.ZERO_TIME`). Coordinates are the fixed-point integers the wire carries. The encode-side
`stringSet` is represented by the map it holds after encoding. `Interned` ties it to the decode-side table
`ss`: every interned string has a non-zero index, and `ss` holds the string at that index.

A Go panic on a malformed message (an index out of range) is a precondition of the modelled operation. The
preconditions are named by what Go reads: `RunTerminated`, `Framed`, `DenseReadable`, `WayDenseReadable`,
`MembersReadable`, `MemberDenseReadable` and `RelationReadable`. The round-trip lemmas prove that what the
marshalers write always meets them.

## Model

| member | source | states |
|---|---|---|
| IntWidth.Wrap | marshal.go:31 | a Go integer conversion (`int32(x)`, and wrapping `int64` arithmetic) yields a value of the target width, and leaves every value already of that width unchanged |
| Delta.Encode | marshal.go:561-569 | the encoded column has the input's length; element i is the wrapped difference between input i and input i-1, and the first element is kept as it is (its predecessor is zero) |
| Delta.EncodeInts | marshal.go:551-569 | the `prev`-carrying loop of `encodeInt32`/`encodeInt64` writes, at every index, the wrapped difference from the previous input element; its result is the delta encoding |
| Delta.Decode | marshal.go:571-589 | the decoded column has the input's length, and element i is the wrapped sum of the deltas 0..i (the `prev` accumulator after i+1 steps) |
| Delta.DecodeInts | marshal.go:571-589 | the loop of `decodeInt32`/`decodeInt64` writes, at every index i, the wrapped sum of the deltas 0..i; its result is the delta decoding |
| Delta.DecodeEncode | marshal.go:551-589 | decoding an encoded column gives the column back, for every column of the Go type, including empty columns and columns with negative or extreme values |
| Delta.EncodeDecode | marshal.go:551-589 | encoding a decoded delta column gives the deltas back, so the codec is a bijection on columns of the Go type |
| Timestamps.TimeToUnix | marshal.go:611-618 | the encoded timestamp is never negative; it is 0 exactly for instants at or before the epoch and the instant's own Unix value otherwise; decoding it gives the instant back when it is after the epoch, and the zero time otherwise |
| Timestamps.TimeToUnixPointer | marshal.go:620-627 | the result is nil exactly for instants at or before the epoch; otherwise it holds the value `timeToUnix` gives, which decodes back to the same instant |
| Timestamps.UnixToTime | marshal.go:629-635 | the decoded time is Go's zero time exactly when the encoded value is at most 0; a positive value u decodes to the instant u itself (`time.Unix(u, 0)`) |
| Timestamps.UnixToTimePointer | marshal.go:637-644 | the result is nil exactly when the value is at most 0; otherwise it holds the instant `unixToTime` decodes, which lies after the epoch |
| Timestamps.CommittedRoundTrip | marshal.go:39-71 | an optional committed time that is encoded only when present, read back through the zero-defaulting getter and decoded with the pointer codec, is kept exactly when it lies after the epoch; otherwise it comes back nil |
| Timestamps.UnixRoundTrip | marshal.go:611-644 | every positive encoded value survives decode-then-encode through both the plain and the pointer codec |
| Timestamps.TimestampRoundTrip | marshal.go:611-635 | encode-then-decode gives back instants after the epoch and maps every other instant to Go's zero time |
| MemberTypes.TypeToWire | marshal.go:12-16 | `memberTypeMap` gives a valid wire enum value for every kind; `memberTypeMapRev` maps it back to the same kind for node, way and relation; any other kind misses the map and reads as the zero value NODE |
| MemberTypes.WireToType | marshal.go:18-22 | `memberTypeMapRev` gives one of the three member kinds exactly for the three enum values; any other value misses the map and reads as the empty kind |
| MemberTypes.MapsAreInverse | marshal.go:12-22 | the two maps are inverse on {node, way, relation} and on the three enum values, in both directions |
| MemberTypes.KindAfterRoundTrip | marshal.go:255 | a member kind after `memberTypeMap` and then `memberTypeMapRev` is unchanged for the three member kinds and "node" for any other kind |
| TagRuns.EncodeNodesTags | marshal.go:370-381 | the tag column holds exactly 2·TagCount + len(nodes) entries, the capacity `encodeNodesTags` reserves |
| TagRuns.UntaggedNodeRun | marshal.go:377 | a node without tags contributes exactly one terminator |
| TagRuns.NodeRunTerminator | marshal.go:373-377 | a node's run ends with the 0 terminator, right after its 2·len(tags) index entries |
| TagRuns.NodeRunZeros | marshal.go:372-378 | when interned indices are non-zero, a node's run contains exactly one 0, its terminator, at its end |
| TagRuns.EncodeNodesTagsZeros | marshal.go:370-381 | the tag column holds exactly one 0 per node |
| TagRuns.ReadRun | marshal.go:155-168 | the inner tag loop stops at the first 0 at an even offset from the cursor; every pair it reads is the (key, value) entry pair at its offset, and the key is non-zero |
| TagRuns.RunTerminatedExactly | marshal.go:156-167 | the inner tag loop stays in range exactly when the column has a 0 at an even offset 2k from the cursor and every earlier even offset holds a non-zero key; it then reads exactly k pairs (with `TagRuns.ReadRun`'s contract this is the exact condition under which Go does not panic) |
| TagRuns.WalkRuns | marshal.go:121-169 | the walk yields one run per node, and the first node reads the run at the starting cursor |
| TagRuns.WalkRunsAt | marshal.go:121-169 | node i reads its run exactly where the shared cursor stands after the first i nodes (`tagLoc` carried across iterations), and that run is terminated |
| TagRuns.ReadNodeRun | marshal.go:155-168 | reading from the start of a node's encoded run, wherever that run lies in the column, finds its terminator and gives exactly the node's own interned index pairs |
| TagRuns.WalkEncoded | marshal.go:121-169 | walking the encoded runs of consecutive nodes from any cursor frames every node, gives each node exactly its own pairs, and leaves the cursor right after the last terminator |
| TagRuns.NodesTagsRoundTrip | marshal.go:155-169 | on the column `encodeNodesTags` writes, the shared cursor loop never reads out of range; it resolves every node's tags back to that node's tags, in order; and it ends with the cursor at the end of the column |
| TagRuns.ResolveInterned | marshal.go:160-163 | resolving interned key and value indices in the string table gives back the original tags |
| Members.EncodeWayNodeIDs | marshal.go:406-416 | `encodeWayNodeIDs` is the 64-bit delta encoding of the way's node IDs |
| Members.EncodeWayNodeIDsIsDelta | marshal.go:406-416 | the `prev`-carrying loop over the references (each ID minus the one before, the first minus zero) is exactly the 64-bit delta encoding of the node IDs |
| Members.DecodeWayNodeIDs | marshal.go:418-431 | there is one reference per delta; the IDs are the delta decoding of the column; every snapshot field is zero; an empty column gives no references |
| Members.WayNodeIDsRoundTrip | marshal.go:406-431 | decoding the encoded references gives back the node IDs of the way, in order |
| Members.EncodeDenseWayNodes | marshal.go:433-454 | the four snapshot columns each have one entry per reference |
| Members.WayDenseBlock | marshal.go:194-199 | the dense block is attached exactly when the first reference carries a non-zero version, and then has one version entry per reference |
| Members.DecodeDenseWayNodes | marshal.go:456-473 | node IDs and count are unchanged; with no block nothing changes; reference i below the version column's length takes `versions[i]` and the i-th delta-decoded changeset ID, latitude and longitude; references beyond it keep their values |
| Members.WayNodesRoundTrip | marshal.go:433-473 | after the dense way-node codec and the decode of the ID column, every ID is kept; all snapshots are kept when the first reference has a version, and all are cleared otherwise |
| Members.EncodeMembers | marshal.go:247-256 | the role, reference and type columns each have one entry per member, and every type entry is a valid wire enum value |
| Members.DecodeMembers | marshal.go:475-494 | there is one member per role; member i has role `ss[roles[i]]`, the i-th delta-decoded reference and kind `memberTypeMapRev[types[i]]`; no decoded member has a snapshot (version, changeset and coordinates zero) |
| Members.CountNodeMembers | marshal.go:503-507 | the `nodes` counter is positive exactly when some member has kind node, and never exceeds the member count |
| Members.EncodeDenseMembers | marshal.go:496-527 | versions and changeset IDs always have one entry per member; the coordinate columns are present exactly when some member is a node, and then have one entry per member |
| Members.RelationDenseBlock | marshal.go:277-279 | the dense block is attached exactly when the first member carries a non-zero version, and then has one version entry per member |
| Members.DecodeDenseMembers | marshal.go:529-549 | with no block, or a block with no versions, the members are returned unchanged; otherwise the count and every member's kind, reference and role are kept; member i below the version column's length takes `versions[i]` and the i-th delta-decoded changeset ID, plus the i-th decoded coordinates when the block has latitudes (and keeps its own otherwise); members beyond it are unchanged |
| Members.DecodeEncodedMembers | marshal.go:475-494 | decoding the columns the member loop wrote gives every member its role, reference and mapped kind back, without a snapshot |
| Members.DenseMembersRoundTrip | marshal.go:496-549 | the dense member block restores every member's version and changeset ID, and its coordinates exactly when some member is a node |
| Members.MembersRoundTrip | marshal.go:246-312 | after `marshalRelation` and `unmarshalRelation`, roles, references and kinds (modulo the kind maps) survive; the snapshot survives exactly when the first member has a version, and its coordinates only when some member is a node |
| DenseNodes.CountCommitted | marshal.go:357-360 | the `cc` counter is 0 exactly when no node has a committed time |
| DenseNodes.DenseNodesValues | marshal.go:335-368 | all plain columns have one entry per node; entry i holds node i's ID, coordinates, raw `Timestamp.Unix()`, version as `int32` and visibility; the committed column is nil exactly when no node has a committed time, and otherwise holds, for every node, `timeToUnix` of its committed time or 0 when it has none; the tag count is the batch's total number of tags |
| DenseNodes.NodesChangesetInfo | marshal.go:389-404 | the changeset, user ID and user-name columns each have one entry per node; entry i is node i's changeset ID, its user ID as `int32` and its user name's table index as `int32` |
| DenseNodes.MarshalNodes | marshal.go:83-109 | all always-written columns have one entry per node; the tag column is written exactly when some node has a tag; without `includeChangeset` the three changeset columns are empty |
| DenseNodes.NodeRuns | marshal.go:155-169 | there is one run of tag pairs per node, and every run is empty when the batch has no tag column |
| DenseNodes.NodeAt | marshal.go:123-171 | node i has the i-th delta-decoded ID and coordinates, `versions[i]`, `visibles[i]`, the decoded timestamp, and, when the committed column reaches i, the committed time `unixToTimePointer` decodes from its i-th delta-decoded entry (none otherwise); under a changeset context it has the context's changeset ID, user ID and user name, otherwise the decoded column values (zero or empty when a column is absent); its tags are the ones the shared cursor reads for node i, none without a tag column |
| DenseNodes.UnmarshalNodes | marshal.go:111-175 | there is one node per ID; under a changeset context every node has the context's changeset ID, user ID and user name; with no tag column no node has tags; a decoded committed time is always after the epoch |
| DenseNodes.ValueColumnsRoundTrip | marshal.go:84-117 | the ID, coordinate, timestamp and committed columns decode back to the plain values `denseNodesValues` computed |
| DenseNodes.ChangesetColumnsRoundTrip | marshal.go:101-119 | the changeset, user ID and user-name columns decode back to the plain values; each user-name entry is that node's table index |
| DenseNodes.TagColumnRoundTrip | marshal.go:97-169 | the tag column written when some node has a tag (and omitted otherwise) gives every node its own tags back |
| DenseNodes.DecodedColumnsRoundTrip | marshal.go:83-119 | every delta-encoded column of a batch with changeset data decodes to the plain column it came from |
| DenseNodes.NodeAtColumns | marshal.go:123-153 | a node read from columns holding its own values is the node with its timestamps settled |
| DenseNodes.MarshalledReadable | marshal.go:83-169 | a batch written with changeset data can be read without an index out of range, and each node's tag run resolves to its own tags |
| DenseNodes.NodeAtRoundTrip | marshal.go:123-171 | node i of a decoded batch that was encoded with changeset data equals the original node i with its timestamps settled |
| DenseNodes.DenseNodesRoundTrip | marshal.go:83-175 | `unmarshalNodes(marshalNodes(ns, true))` gives every node back, with only its timestamp and committed time settled by the sentinel codec |
| DenseNodes.NodeAtRoundTripInChangeset | marshal.go:123-153 | node i of a batch decoded under a changeset context is the original node i with its timestamps settled and the context's changeset ID, user ID and user name |
| DenseNodes.DenseNodesRoundTripInChangeset | marshal.go:83-175 | with the changeset columns left out and a context supplied, every node comes back with the context's changeset ID, user ID and user name, and is otherwise as in the plain round trip |
| Entities.MarshalInfo | marshal.go:30-47 | the info timestamp is never negative; a committed time is written only when the entity has one and it is after the epoch; without `includeChangeset` the changeset ID, user ID and user-name index are zero |
| Entities.MarshalNode | marshal.go:24-50 | the message carries the node's ID, coordinates and the given key and value columns |
| Entities.UnmarshalNode | marshal.go:52-81 | fails exactly when `tagsFromStrings` fails, passing its error on; otherwise it carries those tags and the message's ID and coordinates; its timestamp is `unixToTime` of the wire value (Go's zero time for every value at most 0), its committed time is `unixToTimePointer` of the zero-defaulted committed field, and version and visibility are copied; without a context the changeset ID, user ID and user name `ss[userSid]` come from the `Info`, and under a changeset context they are the context's |
| Entities.NodeRoundTrip | marshal.go:24-81 | a node marshalled with changeset data and unmarshalled comes back with only its timestamps settled, given that `tagsFromStrings` returns the node's tags (the lemma supplies them as that call's result) |
| Entities.NodeRoundTripInChangeset | marshal.go:24-81 | a node marshalled without changeset data and unmarshalled under a context comes back with its timestamps settled and the context's changeset ID, user ID and user name, given that `tagsFromStrings` returns the node's tags |
| Entities.MarshalWay | marshal.go:177-211 | there is one reference entry per way node; the dense block is attached exactly when the first way node has a version |
| Entities.UnmarshalWay | marshal.go:213-244 | fails exactly when `tagsFromStrings` fails, passing its error on; otherwise the way has the message's ID and one node per reference, whose IDs are the delta decoding of the reference column, with the dense snapshot block applied by `decodeDenseWayNodes`; the `Info` is decoded as in `unmarshalNode` (sentinel timestamps, copied version and visibility, user fields from the `Info` without a context); under a changeset context the context's values replace the way's |
| Entities.WayRoundTrip | marshal.go:177-244 | a way marshalled with changeset data and unmarshalled comes back with its timestamps settled; its node snapshots are kept when the first node has a version and cleared otherwise; its tags come back given that `tagsFromStrings` returns them (the lemma supplies them as that call's result) |
| Entities.MarshalRelation | marshal.go:246-290 | the role, reference and type columns have one entry per member; the dense block is attached exactly when the first member has a version |
| Entities.UnmarshalRelation | marshal.go:292-322 | fails exactly when `tagsFromStrings` fails, passing its error on; otherwise the relation has the message's ID and one member per role, with the role's string and the mapped kind, the members being `decodeMembers` with the dense snapshot block applied by `decodeDenseMembers`; the `Info` is decoded as in `unmarshalNode`; under a changeset context the context's values replace the relation's |
| Entities.RelationRoundTrip | marshal.go:246-322 | a relation marshalled with changeset data can be unmarshalled; it comes back with its timestamps settled and its members as `Members.MembersRoundTrip` describes; its tags come back given that `tagsFromStrings` returns them (the lemma supplies them as that call's result) |

## Left out

- `geoToInt64` and the division by `locMultiple` (floating point): coordinates are carried as the
  fixed-point integers, so the rounding of `geoToInt64` is not modelled.
- `time.Time` beyond its Unix seconds: nanoseconds, location and `UTC()` are not modelled.
- `marshalUpdates`/`unmarshalUpdates`: they are outside the integer core, and the `Updates` fields are not part
  of the entities here.
- `stringSet.Add`, `Tags.keyValues` and `tagsFromStrings` are not part of this model.
  - Encoding takes the final string-to-index map and the key and value columns as parameters.
  - Single-entity decoding takes the result of `tagsFromStrings` as a parameter.
  - The order in which `Add` hands out indices is not modelled; only the properties listed in `Interned` are.
- Malformed messages: where Go panics (an index out of range), the model has a precondition instead of an
  error result. `unmarshalNodes` always returns a nil error, so its model returns the nodes directly.
- Absent `Info` messages and absent optional fields read through the zero-defaulting getters.
  - The model always has an `Info`. A Go message without one reads exactly like one whose fields are all zero.
  - `Visible` is a plain boolean rather than `proto.Bool`.
  - `unmarshalNodes` reads `encoded.DenseInfo` directly, not through a getter, so Go panics on a batch
    without one. `Wire.DenseNodes` always has a `DenseInfo`, so that panic has no counterpart in the model.
- nil and empty slices are not distinguished. `decodeDenseMembers` tests `Lats != nil`, which is modelled as
  a non-empty `Lats`: after a protobuf round trip, an empty repeated field is nil.
- In-place mutation: Go's delta codec rewrites the message's slices in place. Here columns are values, and
  every decoded column is a new value.
- The numbering of `osmpb.Relation_MemberType` (NODE = 0, WAY = 1, RELATION = 2) comes from the OSM PBF
  format. The generated `osmpb` code is not part of this model.
- Members.EncodeDenseWayNodes: its own contract states only the column lengths. The column contents are
  stated by `Members.WayNodesRoundTrip`, which proves they decode back to each reference's snapshot.

=== FILE: delta.dfy ===
/** The delta codec of marshal.go (`encodeInt32/64`, `decodeInt32/64`, `encodeWayNodeIDs`):
    each element is replaced by its difference from the previous one, and decoding takes the
    running sum back. All arithmetic is Go's wrapping arithmetic at the column's width. */
module Delta {
  import opened IntWidth

  /** The element the Go loop holds in `prev` when it reaches index `i`: zero before the first. */
  function Pred(s: seq<int>, i: nat): int
    requires i <= |s|
  {
    if i == 0 then 0 else s[i - 1]
  }

  /** Sum of a sequence, peeled from the back so that prefixes unfold one step at a time. */
  function Sum(s: seq<int>): int
  {
    if |s| == 0 then 0 else Sum(s[..|s| - 1]) + s[|s| - 1]
  }

  /** Delta form of `s` when the element before `s[0]` was `prev`. */
  function EncodeFrom(w: Width, prev: int, s: seq<int>): (r: seq<int>)
    ensures |r| == |s|
    decreases |s|
  {
    if |s| == 0 then [] else [Wrap(w, s[0] - prev)] + EncodeFrom(w, s[0], s[1..])
  }

  /** Element `i` of the delta form is the difference to its predecessor. */
  lemma {:induction false} EncodeFromAt(w: Width, prev: int, s: seq<int>, i: nat)
    requires i < |s|
    ensures EncodeFrom(w, prev, s)[i] == Wrap(w, s[i] - (if i == 0 then prev else s[i - 1]))
    decreases i
  {
    if i > 0 {
      EncodeFromAt(w, s[0], s[1..], i - 1);
    }
  }

  /** `encodeInt32` / `encodeInt64`: the first element is kept (its predecessor is zero), every
      later element becomes its difference from the one before it. */
  function Encode(w: Width, s: seq<int>): (r: seq<int>)
    ensures |r| == |s|
    ensures forall i {:trigger r[i]} :: 0 <= i < |s| ==> r[i] == Wrap(w, s[i] - Pred(s, i))
  {
    var r := EncodeFrom(w, 0, s);
    assert forall i {:trigger r[i]} :: 0 <= i < |s| ==> r[i] == Wrap(w, s[i] - Pred(s, i)) by {
      forall i | 0 <= i < |s| {
        EncodeFromAt(w, 0, s, i);
      }
    }
    r
  }

  /** Running sums of `d`, starting from the accumulator value `prev`. */
  function DecodeFrom(w: Width, prev: int, d: seq<int>): (r: seq<int>)
    ensures |r| == |d|
    decreases |d|
  {
    if |d| == 0 then [] else
      var p := Wrap(w, prev + d[0]);
      [p] + DecodeFrom(w, p, d[1..])
  }

  /** `decodeInt32` / `decodeInt64`: element `i` becomes the (wrapped) sum of `d[0..i]`. */
  function Decode(w: Width, d: seq<int>): (r: seq<int>)
    ensures |r| == |d|
    ensures forall i {:trigger r[i]} :: 0 <= i < |d| ==> r[i] == Wrap(w, Sum(d[..i + 1]))
  {
    var r := DecodeFrom(w, 0, d);
    assert forall i {:trigger r[i]} :: 0 <= i < |d| ==> r[i] == Wrap(w, Sum(d[..i + 1])) by {
      forall i | 0 <= i < |d|
        ensures r[i] == Wrap(w, Sum(d[..i + 1]))
      {
        DecodeFromIsPrefixSum(w, 0, d, i);
        assert 0 + Sum(d[..i + 1]) == Sum(d[..i + 1]);
      }
    }
    r
  }

  lemma {:induction false} SumSnoc(s: seq<int>, x: int)
    ensures Sum(s + [x]) == Sum(s) + x
  {
    assert (s + [x])[..|s + [x]| - 1] == s;
  }

  /** Sum distributes over a split at the front. */
  lemma {:induction false} SumCons(x: int, s: seq<int>)
    ensures Sum([x] + s) == x + Sum(s)
    decreases |s|
  {
    if |s| == 0 {
      assert [x] + s == [x];
      assert [x][..0] == [];
    } else {
      var init := s[..|s| - 1];
      assert s == init + [s[|s| - 1]];
      assert [x] + s == ([x] + init) + [s[|s| - 1]];
      SumSnoc([x] + init, s[|s| - 1]);
      SumCons(x, init);
      SumSnoc(init, s[|s| - 1]);
    }
  }

  /** Element `i` of the running-sum decoding is the wrapped prefix sum through `d[i]`. */
  lemma {:induction false} DecodeFromIsPrefixSum(w: Width, prev: int, d: seq<int>, i: nat)
    requires i < |d|
    ensures DecodeFrom(w, prev, d)[i] == Wrap(w, prev + Sum(d[..i + 1]))
    decreases i
  {
    var p := Wrap(w, prev + d[0]);
    if i == 0 {
      assert d[..1] == [d[0]];
      SumCons(d[0], []);
      assert [d[0]] + [] == [d[0]];
    } else {
      DecodeFromIsPrefixSum(w, p, d[1..], i - 1);
      assert d[1..][..i] == d[1..i + 1];
      assert d[..i + 1] == [d[0]] + d[1..i + 1];
      SumCons(d[0], d[1..i + 1]);
      WrapAdd(w, prev + d[0], Sum(d[1..i + 1]));
    }
  }

  /** Decoding undoes encoding from any shared starting accumulator. */
  lemma {:induction false} DecodeEncodeFrom(w: Width, prev: int, s: seq<int>)
    requires AllInRange(w, s)
    ensures DecodeFrom(w, prev, EncodeFrom(w, prev, s)) == s
    decreases |s|
  {
    if |s| > 0 {
      var e := EncodeFrom(w, prev, s);
      assert e == [Wrap(w, s[0] - prev)] + EncodeFrom(w, s[0], s[1..]);
      AddSubCancel(w, prev, s[0]);
      assert DecodeFrom(w, prev, e) == [s[0]] + DecodeFrom(w, s[0], e[1..]);
      DecodeEncodeFrom(w, s[0], s[1..]);
      assert s == [s[0]] + s[1..];
    }
  }

  /** Delta round trip: `decodeInt64(encodeInt64(x)) == x` (and likewise at 32 bits) for every
      column of values of the Go type, including empty and negative ones. */
  lemma DecodeEncode(w: Width, s: seq<int>)
    requires AllInRange(w, s)
    ensures Decode(w, Encode(w, s)) == s
  {
    DecodeEncodeFrom(w, 0, s);
  }

  /** Encoding undoes decoding from any shared starting accumulator. */
  lemma {:induction false} EncodeDecodeFrom(w: Width, prev: int, d: seq<int>)
    requires AllInRange(w, d)
    ensures EncodeFrom(w, prev, DecodeFrom(w, prev, d)) == d
    decreases |d|
  {
    if |d| > 0 {
      var p := Wrap(w, prev + d[0]);
      var r := DecodeFrom(w, prev, d);
      assert r == [p] + DecodeFrom(w, p, d[1..]);
      SubAddCancel(w, prev, d[0]);
      assert EncodeFrom(w, prev, r) == [d[0]] + EncodeFrom(w, p, r[1..]);
      EncodeDecodeFrom(w, p, d[1..]);
      assert d == [d[0]] + d[1..];
    }
  }

  /** The converse round trip: every column of deltas is the encoding of exactly one column,
      so the codec is a bijection on columns of the Go type. */
  lemma EncodeDecode(w: Width, d: seq<int>)
    requires AllInRange(w, d)
    ensures Encode(w, Decode(w, d)) == d
  {
    EncodeDecodeFrom(w, 0, d);
  }

  /** The element-wise description in `Encode`'s contract pins the encoding down completely. */
  lemma EncodeDeterminedPointwise(w: Width, s: seq<int>, r: seq<int>)
    requires |r| == |s|
    requires forall i {:trigger r[i]} :: 0 <= i < |s| ==> r[i] == Wrap(w, s[i] - Pred(s, i))
    ensures r == Encode(w, s)
  {
  }

  /** The loop of `encodeInt32` / `encodeInt64`. Go rewrites the slice in place and returns it;
      here the column is a value, `r` is the rewritten column, and the caller's copy is consumed. */
  method EncodeInts(w: Width, vals: seq<int>) returns (r: seq<int>)
    ensures |r| == |vals|
    ensures forall i {:trigger r[i]} :: 0 <= i < |vals| ==> r[i] == Wrap(w, vals[i] - Pred(vals, i))
    ensures r == Encode(w, vals)
  {
    r := vals;
    var prev := 0;
    var i := 0;
    while i < |r|
      invariant 0 <= i <= |r| == |vals|
      invariant forall j :: i <= j < |vals| ==> r[j] == vals[j]
      invariant forall j {:trigger r[j]} :: 0 <= j < i ==> r[j] == Wrap(w, vals[j] - Pred(vals, j))
      invariant prev == Pred(vals, i)
    {
      var v := r[i];
      var d := Wrap(w, v - prev);
      r := r[i := d];
      prev := v;
      i := i + 1;
    }
    EncodeDeterminedPointwise(w, vals, r);
  }

  /** The loop of `decodeInt32` / `decodeInt64`, with the accumulator `prev` wrapping like Go's. */
  method DecodeInts(w: Width, vals: seq<int>) returns (r: seq<int>)
    ensures |r| == |vals|
    ensures forall i {:trigger r[i]} :: 0 <= i < |vals| ==> r[i] == Wrap(w, Sum(vals[..i + 1]))
    ensures r == Decode(w, vals)
  {
    r := vals;
    var prev := 0;
    var i := 0;
    while i < |r|
      invariant 0 <= i <= |r| == |vals|
      invariant forall j :: i <= j < |vals| ==> r[j] == vals[j]
      invariant forall j :: 0 <= j < i ==> r[j] == Wrap(w, Sum(vals[..j + 1]))
      invariant prev == Wrap(w, Sum(vals[..i]))
    {
      var v := r[i];
      assert vals[..i + 1] == vals[..i] + [v];
      SumSnoc(vals[..i], v);
      WrapAdd(w, Sum(vals[..i]), v);
      prev := Wrap(w, prev + v);
      r := r[i := prev];
      i := i + 1;
    }
  }
}

=== FILE: dense_nodes.dfy ===
/** The dense (columnar) node batch: `denseNodesValues`, `nodesChangesetInfo`, `marshalNodes` and
    `unmarshalNodes`. Every column is aligned with the node list by position; IDs, coordinates,
    timestamps, committed times and the changeset columns are delta-encoded. */
module DenseNodes {
  import opened Wrappers
  import opened IntWidth
  import opened Delta
  import opened Timestamps
  import opened Osm
  import opened StringTable
  import opened TagRuns
  import Wire

  /** `denseNodesResult`. */
  datatype DenseValues = DenseValues(
    ids: seq<int>,
    lats: seq<int>,
    lons: seq<int>,
    timestamps: seq<int>,
    committeds: seq<int>,
    versions: seq<int>,
    visibles: seq<bool>,
    tagCount: nat)

  /** The `cc` counter of `denseNodesValues`: nodes that carry a committed time. */
  function CountCommitted(ns: seq<Node>): (c: nat)
    ensures c <= |ns|
    ensures c == 0 <==> forall i :: 0 <= i < |ns| ==> ns[i].committed.None?
    decreases |ns|
  {
    if |ns| == 0 then 0
    else (if ns[0].committed.Some? then 1 else 0) + CountCommitted(ns[1..])
  }

  /** The committed column entry of a node: its committed time through `timeToUnix`, or 0. */
  function CommittedUnix(n: Node): int
  {
    if n.committed.Some? then TimeToUnix(n.committed.value) else 0
  }

  /** `denseNodesValues`: the plain (not yet delta-encoded) columns. The committed column is
      dropped altogether (Go's nil) when no node has a committed time. */
  function DenseNodesValues(ns: seq<Node>): (d: DenseValues)
    ensures |d.ids| == |d.lats| == |d.lons| == |d.timestamps| == |d.versions| == |d.visibles| == |ns|
    ensures |d.committeds| == 0 <==> forall i :: 0 <= i < |ns| ==> ns[i].committed.None?
    ensures |d.committeds| > 0 ==> |d.committeds| == |ns|
    ensures forall i {:trigger d.ids[i]} :: 0 <= i < |ns| ==> d.ids[i] == ns[i].id
    ensures forall i {:trigger d.lats[i]} :: 0 <= i < |ns| ==> d.lats[i] == ns[i].lat
    ensures forall i {:trigger d.lons[i]} :: 0 <= i < |ns| ==> d.lons[i] == ns[i].lon
    ensures forall i {:trigger d.timestamps[i]} :: 0 <= i < |ns| ==> d.timestamps[i] == ns[i].timestamp
    ensures forall i {:trigger d.versions[i]} :: 0 <= i < |ns| ==> d.versions[i] == Wrap(W32, ns[i].version)
    ensures forall i {:trigger d.visibles[i]} :: 0 <= i < |ns| ==> d.visibles[i] == ns[i].visible
    ensures |d.committeds| > 0 ==> forall i {:trigger d.committeds[i]} :: 0 <= i < |ns| ==>
      d.committeds[i] == CommittedUnix(ns[i])
    ensures d.tagCount == TagCount(ns)
  {
    var cc := CountCommitted(ns);
    var committeds := if cc == 0 then [] else seq(|ns|, i requires 0 <= i < |ns| => CommittedUnix(ns[i]));
    DenseValues(
      seq(|ns|, i requires 0 <= i < |ns| => ns[i].id),
      seq(|ns|, i requires 0 <= i < |ns| => ns[i].lat),
      seq(|ns|, i requires 0 <= i < |ns| => ns[i].lon),
      seq(|ns|, i requires 0 <= i < |ns| => ns[i].timestamp),
      committeds,
      seq(|ns|, i requires 0 <= i < |ns| => Wrap(W32, ns[i].version)),
      seq(|ns|, i requires 0 <= i < |ns| => ns[i].visible),
      TagCount(ns))
  }

  /** `changesetInfoResult`. */
  datatype ChangesetColumns = ChangesetColumns(changesets: seq<int>, userIds: seq<int>, userSids: seq<int>)

  predicate UsersInterned(ns: seq<Node>, dict: Dict)
  {
    forall i :: 0 <= i < |ns| ==> ns[i].user in dict
  }

  /** `nodesChangesetInfo`: changeset ID, user ID (as `int32`) and user-name index (as `int32`)
      of every node. */
  function NodesChangesetInfo(ns: seq<Node>, dict: Dict): (c: ChangesetColumns)
    requires UsersInterned(ns, dict)
    ensures |c.changesets| == |c.userIds| == |c.userSids| == |ns|
    ensures forall i :: 0 <= i < |ns| ==>
      && c.changesets[i] == ns[i].changesetId
      && c.userIds[i] == Wrap(W32, ns[i].userId)
      && c.userSids[i] == Wrap(W32, dict[ns[i].user])
  {
    ChangesetColumns(
      seq(|ns|, i requires 0 <= i < |ns| => ns[i].changesetId),
      seq(|ns|, i requires 0 <= i < |ns| => Wrap(W32, ns[i].userId)),
      seq(|ns|, i requires 0 <= i < |ns| => Wrap(W32, dict[ns[i].user])))
  }

  /** `marshalNodes`. The tag column is written only when some node has a tag, and the changeset
      columns only when `includeChangeset` is set. */
  function MarshalNodes(ns: seq<Node>, dict: Dict, includeChangeset: bool): (e: Wire.DenseNodes)
    requires NodesTagsInterned(ns, dict)
    requires includeChangeset ==> UsersInterned(ns, dict)
    ensures |e.ids| == |e.lats| == |e.lons| == |ns|
    ensures |e.denseInfo.versions| == |e.denseInfo.timestamps| == |e.denseInfo.visibles| == |ns|
    ensures |e.keysVals| == 0 <==> TagCount(ns) == 0
    ensures !includeChangeset ==>
      e.denseInfo.changesetIds == e.denseInfo.userIds == e.denseInfo.userSids == []
  {
    var dense := DenseNodesValues(ns);
    var info := Wire.DenseInfo(
      dense.versions,
      Delta.Encode(W64, dense.timestamps),
      Delta.Encode(W64, dense.committeds),
      dense.visibles,
      [], [], []);
    var info := if includeChangeset then
        var cs := NodesChangesetInfo(ns, dict);
        info.(changesetIds := Delta.Encode(W64, cs.changesets),
              userIds := Delta.Encode(W32, cs.userIds),
              userSids := Delta.Encode(W32, cs.userSids))
      else info;
    Wire.DenseNodes(
      Delta.Encode(W64, dense.ids),
      info,
      Delta.Encode(W64, dense.lats),
      Delta.Encode(W64, dense.lons),
      if dense.tagCount > 0 then EncodeNodesTags(ns, dict) else [])
  }

  /** Every index any node's run names resolves in the table. */
  predicate RunsResolvable(runs: seq<seq<KeyVal>>, ss: seq<string>)
  {
    forall i, j :: 0 <= i < |runs| && 0 <= j < |runs[i]| ==> runs[i][j].key < |ss| && runs[i][j].val < |ss|
  }

  /** What `unmarshalNodes` reads without indexing out of range: every always-read column covers
      every node; an optional changeset column, when present, covers every node too (only read
      without a substitution context); the user-name indices resolve; and, when there is a tag
      column, every node finds its terminator and every tag index resolves. */
  predicate DenseReadable(e: Wire.DenseNodes, ss: seq<string>, cs: Option<Changeset>)
  {
    var n := |e.ids|;
    var di := e.denseInfo;
    && n <= |e.lats| && n <= |e.lons|
    && n <= |di.versions| && n <= |di.visibles| && n <= |di.timestamps|
    && (cs.None? ==>
         && (|di.changesetIds| > 0 ==> n <= |di.changesetIds|)
         && (|di.userIds| > 0 ==> n <= |di.userIds|)
         && (|di.userSids| > 0 ==>
               n <= |di.userSids|
               && forall i :: 0 <= i < n ==> 0 <= Delta.Decode(W32, di.userSids)[i] < |ss|))
    && (|e.keysVals| > 0 ==>
         Framed(e.keysVals, 0, n) && RunsResolvable(WalkRuns(e.keysVals, 0, n), ss))
  }

  /** The columns after `unmarshalNodes` has run the delta decoder over them. */
  datatype Columns = Columns(
    ids: seq<int>,
    lats: seq<int>,
    lons: seq<int>,
    timestamps: seq<int>,
    changesetIds: seq<int>,
    committeds: seq<int>,
    userIds: seq<int>,
    userSids: seq<int>)

  function DecodeColumns(e: Wire.DenseNodes): Columns
  {
    Columns(
      Delta.Decode(W64, e.ids),
      Delta.Decode(W64, e.lats),
      Delta.Decode(W64, e.lons),
      Delta.Decode(W64, e.denseInfo.timestamps),
      Delta.Decode(W64, e.denseInfo.changesetIds),
      Delta.Decode(W64, e.denseInfo.committeds),
      Delta.Decode(W32, e.denseInfo.userIds),
      Delta.Decode(W32, e.denseInfo.userSids))
  }

  /** The tag pairs each node reads: none at all when the batch has no tag column. */
  function NodeRuns(e: Wire.DenseNodes): (runs: seq<seq<KeyVal>>)
    requires |e.keysVals| > 0 ==> Framed(e.keysVals, 0, |e.ids|)
    ensures |runs| == |e.ids|
    ensures |e.keysVals| == 0 ==> forall i :: 0 <= i < |runs| ==> runs[i] == []
  {
    if |e.keysVals| > 0 then WalkRuns(e.keysVals, 0, |e.ids|)
    else seq(|e.ids|, i => [])
  }

  /** Node `i` as the loop body of `unmarshalNodes` builds it: every field is read at position
      `i` of its decoded column; a missing optional column leaves the field at its zero value; a
      changeset context overrides the changeset, user ID and user name; the tags are the ones
      the shared cursor reads for node `i`. */
  function NodeAt(e: Wire.DenseNodes, ss: seq<string>, cs: Option<Changeset>, c: Columns,
                  runs: seq<seq<KeyVal>>, i: nat): (r: Node)
    requires DenseReadable(e, ss, cs)
    requires c == DecodeColumns(e) && runs == NodeRuns(e)
    requires i < |e.ids|
    ensures r.id == Delta.Decode(W64, e.ids)[i]
    ensures r.lat == Delta.Decode(W64, e.lats)[i] && r.lon == Delta.Decode(W64, e.lons)[i]
    ensures r.version == e.denseInfo.versions[i] && r.visible == e.denseInfo.visibles[i]
    ensures r.timestamp == UnixToTime(Delta.Decode(W64, e.denseInfo.timestamps)[i])
    ensures r.committed == if i < |e.denseInfo.committeds|
      then UnixToTimePointer(Delta.Decode(W64, e.denseInfo.committeds)[i]) else None
    ensures cs.Some? ==>
      r.changesetId == cs.value.id && r.userId == cs.value.userId && r.user == cs.value.user
    ensures cs.None? ==> (r.changesetId ==
      if |e.denseInfo.changesetIds| > 0 then Delta.Decode(W64, e.denseInfo.changesetIds)[i] else 0)
    ensures cs.None? ==> (r.userId ==
      if |e.denseInfo.userIds| > 0 then Delta.Decode(W32, e.denseInfo.userIds)[i] else 0)
    ensures cs.None? ==> (r.user ==
      if |e.denseInfo.userSids| > 0 then ss[Delta.Decode(W32, e.denseInfo.userSids)[i]] else "")
    ensures |e.keysVals| == 0 ==> r.tags == []
    ensures |e.keysVals| > 0 ==> r.tags == ResolveTags(ss, WalkRuns(e.keysVals, 0, |e.ids|)[i])
  {
    var di := e.denseInfo;
    var n := Node(
      c.ids[i], c.lats[i], c.lons[i], "", 0, di.visibles[i], di.versions[i], 0,
      UnixToTime(c.timestamps[i]),
      if i < |c.committeds| then UnixToTimePointer(c.committeds[i]) else None,
      ResolveTags(ss, runs[i]));
    if cs.Some? then
      n.(changesetId := cs.value.id, userId := cs.value.userId, user := cs.value.user)
    else
      n.(changesetId := if |c.changesetIds| > 0 then c.changesetIds[i] else 0,
         userId := if |c.userIds| > 0 then c.userIds[i] else 0,
         user := if |c.userSids| > 0 then ss[c.userSids[i]] else "")
  }

  /** `unmarshalNodes`: one node per ID, each reading its own position of every column and its
      own run of the tag column. With a changeset context, every node takes the context's
      changeset ID, user ID and user name, whatever the columns hold. */
  function UnmarshalNodes(e: Wire.DenseNodes, ss: seq<string>, cs: Option<Changeset>): (ns: seq<Node>)
    requires DenseReadable(e, ss, cs)
    ensures |ns| == |e.ids|
    ensures cs.Some? ==> forall i :: 0 <= i < |ns| ==>
      ns[i].changesetId == cs.value.id && ns[i].userId == cs.value.userId && ns[i].user == cs.value.user
    ensures |e.keysVals| == 0 ==> forall i :: 0 <= i < |ns| ==> ns[i].tags == []
    ensures forall i :: 0 <= i < |ns| ==> ns[i].committed.Some? ==> ns[i].committed.value > 0
  {
    var c := DecodeColumns(e);
    var runs := NodeRuns(e);
    seq(|e.ids|, i requires 0 <= i < |e.ids| => NodeAt(e, ss, cs, c, runs, i))
  }

  // ---------------------------------------------------------------- round trip

  /** Every field the batch encodes is a value of its Go wire type. */
  predicate NodesFit(ns: seq<Node>)
  {
    forall i :: 0 <= i < |ns| ==>
      && InRange(W64, ns[i].id)
      && InRange(W64, ns[i].lat)
      && InRange(W64, ns[i].lon)
      && InRange(W64, ns[i].timestamp)
      && InRange(W64, ns[i].changesetId)
      && InRange(W32, ns[i].version)
      && InRange(W32, ns[i].userId)
      && (ns[i].committed.Some? ==> InRange(W64, ns[i].committed.value))
  }

  /** No tags in the batch means no tags on any node. */
  lemma {:induction false} NoTagsAnywhere(ns: seq<Node>)
    requires TagCount(ns) == 0
    ensures forall i :: 0 <= i < |ns| ==> ns[i].tags == []
    decreases |ns|
  {
    if |ns| > 0 {
      NoTagsAnywhere(ns[1..]);
      assert forall i :: 1 <= i < |ns| ==> ns[i] == ns[1..][i - 1];
    }
  }

  /** The plain columns of `denseNodesValues` decode back to themselves. */
  lemma ValueColumnsRoundTrip(ns: seq<Node>)
    requires NodesFit(ns)
    ensures var d := DenseNodesValues(ns);
      && Delta.Decode(W64, Delta.Encode(W64, d.ids)) == d.ids
      && Delta.Decode(W64, Delta.Encode(W64, d.lats)) == d.lats
      && Delta.Decode(W64, Delta.Encode(W64, d.lons)) == d.lons
      && Delta.Decode(W64, Delta.Encode(W64, d.timestamps)) == d.timestamps
      && Delta.Decode(W64, Delta.Encode(W64, d.committeds)) == d.committeds
  {
    var d := DenseNodesValues(ns);
    DecodeEncode(W64, d.ids);
    DecodeEncode(W64, d.lats);
    DecodeEncode(W64, d.lons);
    DecodeEncode(W64, d.timestamps);
    assert AllInRange(W64, d.committeds) by {
      forall i | 0 <= i < |d.committeds|
        ensures InRange(W64, d.committeds[i])
      {
        if ns[i].committed.Some? {
          assert 0 <= TimeToUnix(ns[i].committed.value) <= ns[i].committed.value || TimeToUnix(ns[i].committed.value) == 0;
        }
      }
    }
    DecodeEncode(W64, d.committeds);
  }

  /** The changeset columns of `nodesChangesetInfo` decode back to themselves. */
  lemma ChangesetColumnsRoundTrip(ns: seq<Node>, dict: Dict)
    requires NodesFit(ns) && UsersInterned(ns, dict) && FitsInt32(dict)
    ensures var c := NodesChangesetInfo(ns, dict);
      && Delta.Decode(W64, Delta.Encode(W64, c.changesets)) == c.changesets
      && Delta.Decode(W32, Delta.Encode(W32, c.userIds)) == c.userIds
      && Delta.Decode(W32, Delta.Encode(W32, c.userSids)) == c.userSids
      && forall i :: 0 <= i < |ns| ==> c.userSids[i] == dict[ns[i].user]
  {
    var c := NodesChangesetInfo(ns, dict);
    DecodeEncode(W64, c.changesets);
    DecodeEncode(W32, c.userIds);
    DecodeEncode(W32, c.userSids);
  }

  /** The tag column of a batch walks back to each node's own tags. */
  lemma TagColumnRoundTrip(ns: seq<Node>, dict: Dict, ss: seq<string>, e: Wire.DenseNodes)
    requires Interned(dict, ss) && NodesTagsInterned(ns, dict)
    requires |e.ids| == |ns|
    requires e.keysVals == (if TagCount(ns) > 0 then EncodeNodesTags(ns, dict) else [])
    ensures |e.keysVals| > 0 ==>
      Framed(e.keysVals, 0, |ns|) && RunsResolvable(WalkRuns(e.keysVals, 0, |ns|), ss)
    ensures forall i :: 0 <= i < |ns| ==> ResolveTags(ss, NodeRuns(e)[i]) == ns[i].tags
  {
    if TagCount(ns) > 0 {
      NodesTagsRoundTrip(ns, dict, ss);
    } else {
      NoTagsAnywhere(ns);
    }
  }

  /** Decoding the columns `marshalNodes` writes with the changeset columns included gives the
      plain columns of `denseNodesValues` and `nodesChangesetInfo` back. */
  lemma DecodedColumnsRoundTrip(ns: seq<Node>, dict: Dict)
    requires FitsInt32(dict) && NodesTagsInterned(ns, dict) && UsersInterned(ns, dict) && NodesFit(ns)
    ensures var d := DenseNodesValues(ns);
      var cc := NodesChangesetInfo(ns, dict);
      DecodeColumns(MarshalNodes(ns, dict, true))
        == Columns(d.ids, d.lats, d.lons, d.timestamps, cc.changesets, d.committeds, cc.userIds, cc.userSids)
  {
    ValueColumnsRoundTrip(ns);
    ChangesetColumnsRoundTrip(ns, dict);
  }

  /** Node `i` of a decoded batch whose columns are the node's own values. */
  lemma NodeAtColumns(ns: seq<Node>, dict: Dict, ss: seq<string>, e: Wire.DenseNodes, i: nat)
    requires Interned(dict, ss) && FitsInt32(dict) && UsersInterned(ns, dict) && NodesFit(ns)
    requires DenseReadable(e, ss, None) && i < |ns| == |e.ids|
    requires var d := DenseNodesValues(ns);
      var cc := NodesChangesetInfo(ns, dict);
      DecodeColumns(e)
        == Columns(d.ids, d.lats, d.lons, d.timestamps, cc.changesets, d.committeds, cc.userIds, cc.userSids)
    requires e.denseInfo.versions == DenseNodesValues(ns).versions
    requires e.denseInfo.visibles == DenseNodesValues(ns).visibles
    requires ResolveTags(ss, NodeRuns(e)[i]) == ns[i].tags
    ensures NodeAt(e, ss, None, DecodeColumns(e), NodeRuns(e), i) == SettleNode(ns[i])
  {
    ChangesetColumnsRoundTrip(ns, dict);
  }

  /** A batch `marshalNodes` writes with the changeset columns included is readable. */
  lemma MarshalledReadable(ns: seq<Node>, dict: Dict, ss: seq<string>)
    requires Interned(dict, ss) && FitsInt32(dict)
    requires NodesTagsInterned(ns, dict) && UsersInterned(ns, dict) && NodesFit(ns)
    ensures DenseReadable(MarshalNodes(ns, dict, true), ss, None)
    ensures forall i :: 0 <= i < |ns| ==> ResolveTags(ss, NodeRuns(MarshalNodes(ns, dict, true))[i]) == ns[i].tags
  {
    var e := MarshalNodes(ns, dict, true);
    DecodedColumnsRoundTrip(ns, dict);
    ChangesetColumnsRoundTrip(ns, dict);
    TagColumnRoundTrip(ns, dict, ss, e);
  }

  /** Node `i` of the batch `marshalNodes` writes with the changeset columns included. */
  lemma NodeAtRoundTrip(ns: seq<Node>, dict: Dict, ss: seq<string>, i: nat)
    requires Interned(dict, ss) && FitsInt32(dict)
    requires NodesTagsInterned(ns, dict) && UsersInterned(ns, dict) && NodesFit(ns)
    requires i < |ns|
    ensures DenseReadable(MarshalNodes(ns, dict, true), ss, None)
    ensures var e := MarshalNodes(ns, dict, true);
      NodeAt(e, ss, None, DecodeColumns(e), NodeRuns(e), i) == SettleNode(ns[i])
  {
    var e := MarshalNodes(ns, dict, true);
    MarshalledReadable(ns, dict, ss);
    DecodedColumnsRoundTrip(ns, dict);
    NodeAtColumns(ns, dict, ss, e, i);
  }

  /** Dense round trip with the changeset columns included: every node comes back with its
      own ID, coordinates, version, visibility, changeset, user and tags, with its timestamps
      settled by the sentinel codec. */
  lemma DenseNodesRoundTrip(ns: seq<Node>, dict: Dict, ss: seq<string>)
    requires Interned(dict, ss) && FitsInt32(dict)
    requires NodesTagsInterned(ns, dict) && UsersInterned(ns, dict) && NodesFit(ns)
    ensures DenseReadable(MarshalNodes(ns, dict, true), ss, None)
    ensures var r := UnmarshalNodes(MarshalNodes(ns, dict, true), ss, None);
      |r| == |ns| && forall i :: 0 <= i < |ns| ==> r[i] == SettleNode(ns[i])
  {
    MarshalledReadable(ns, dict, ss);
    var e := MarshalNodes(ns, dict, true);
    var r := UnmarshalNodes(e, ss, None);
    forall i | 0 <= i < |ns|
      ensures r[i] == SettleNode(ns[i])
    {
      NodeAtRoundTrip(ns, dict, ss, i);
    }
  }

  /** Node `i` of a batch decoded under a changeset context, when the columns it reads are its own. */
  lemma NodeAtRoundTripInChangeset(ns: seq<Node>, ss: seq<string>, e: Wire.DenseNodes, i: nat, cs: Changeset)
    requires NodesFit(ns)
    requires DenseReadable(e, ss, Some(cs)) && i < |ns| == |e.ids|
    requires var d := DenseNodesValues(ns);
      var c := DecodeColumns(e);
      c.ids == d.ids && c.lats == d.lats && c.lons == d.lons
      && c.timestamps == d.timestamps && c.committeds == d.committeds
    requires e.denseInfo.versions == DenseNodesValues(ns).versions
    requires e.denseInfo.visibles == DenseNodesValues(ns).visibles
    requires ResolveTags(ss, NodeRuns(e)[i]) == ns[i].tags
    ensures NodeAt(e, ss, Some(cs), DecodeColumns(e), NodeRuns(e), i) == NodeInChangeset(SettleNode(ns[i]), cs)
  {
  }

  /** Dense round trip inside a changeset: with the changeset columns left out on encode and a
      context supplied on decode, every node comes back with the context's changeset ID, user
      ID and user name and otherwise as in `DenseNodesRoundTrip`. */
  lemma DenseNodesRoundTripInChangeset(ns: seq<Node>, dict: Dict, ss: seq<string>, cs: Changeset)
    requires Interned(dict, ss) && NodesTagsInterned(ns, dict) && NodesFit(ns)
    ensures DenseReadable(MarshalNodes(ns, dict, false), ss, Some(cs))
    ensures var r := UnmarshalNodes(MarshalNodes(ns, dict, false), ss, Some(cs));
      |r| == |ns| && forall i :: 0 <= i < |ns| ==> r[i] == NodeInChangeset(SettleNode(ns[i]), cs)
  {
    var e := MarshalNodes(ns, dict, false);
    ValueColumnsRoundTrip(ns);
    TagColumnRoundTrip(ns, dict, ss, e);
    var r := UnmarshalNodes(e, ss, Some(cs));
    forall i | 0 <= i < |ns|
      ensures r[i] == NodeInChangeset(SettleNode(ns[i]), cs)
    {
      NodeAtRoundTripInChangeset(ns, ss, e, i, cs);
    }
  }
}

=== FILE: entities.dfy ===
/** The single-entity marshalers: `marshalNode` / `unmarshalNode`, `marshalWay` /
    `unmarshalWay`, `marshalRelation` / `unmarshalRelation`.

    `Tags.keyValues` and `tagsFromStrings` are not part of this model: the marshalers take the
    key and value index columns `keyValues` produced, and the unmarshalers take the outcome of
    `tagsFromStrings` (its tags, or its error as the error's message), as parameters. */
module Entities {
  import opened Wrappers
  import opened IntWidth
  import opened Timestamps
  import opened Osm
  import opened StringTable
  import opened MemberTypes
  import opened Members
  import Wire

  /** The `Info` message all three marshalers build: version as `int32`, the timestamp through
      `timeToUnix`, the committed time through `timeToUnixPointer` when there is one, and the
      changeset, user ID and user-name index only with `includeChangeset`. */
  function MarshalInfo(version: int, timestamp: Time, visible: bool, committed: Option<Time>,
                       changesetId: int, userId: int, user: string,
                       dict: Dict, includeChangeset: bool): (info: Wire.Info)
    requires includeChangeset ==> user in dict
    ensures info.timestamp >= 0
    ensures info.committed.Some? ==> committed.Some? && info.committed.value > 0
    ensures !includeChangeset ==> info.changesetId == 0 && info.userId == 0 && info.userSid == 0
  {
    Wire.Info(
      Wrap(W32, version),
      TimeToUnix(timestamp),
      visible,
      if committed.Some? then TimeToUnixPointer(committed.value) else None,
      if includeChangeset then changesetId else 0,
      if includeChangeset then Wrap(W32, userId) else 0,
      if includeChangeset then dict[user] else 0)
  }

  // ---------------------------------------------------------------- nodes

  /** `marshalNode`. */
  function MarshalNode(n: Node, keys: seq<nat>, vals: seq<nat>, dict: Dict, includeChangeset: bool): (e: Wire.Node)
    requires includeChangeset ==> n.user in dict
    ensures e.id == n.id && e.lat == n.lat && e.lon == n.lon && e.keys == keys && e.vals == vals
  {
    Wire.Node(
      n.id, keys, vals,
      MarshalInfo(n.version, n.timestamp, n.visible, n.committed, n.changesetId, n.userId, n.user,
                  dict, includeChangeset),
      n.lat, n.lon)
  }

  /** `unmarshalNode`. `tags` is what `tagsFromStrings` returned for the key and value columns;
      its error is passed on. With a changeset context the node takes the context's changeset
      ID, user ID and user name, whatever the message holds. */
  function UnmarshalNode(e: Wire.Node, ss: seq<string>, cs: Option<Changeset>,
                            tags: Result<seq<Tag>, string>): (r: Result<Node, string>)
    requires tags.Success? ==> e.info.userSid < |ss|
    ensures r.Failure? <==> tags.Failure?
    ensures tags.Failure? ==> r.error == tags.error
    ensures r.Success? ==> r.value.tags == tags.value && r.value.id == e.id
    ensures r.Success? ==> r.value.lat == e.lat && r.value.lon == e.lon
    ensures r.Success? ==>
      && r.value.timestamp == UnixToTime(e.info.timestamp)
      && r.value.committed == UnixToTimePointer(GetOrZero(e.info.committed))
      && r.value.version == e.info.version && r.value.visible == e.info.visible
    ensures r.Success? && cs.None? ==>
      && r.value.changesetId == e.info.changesetId && r.value.userId == e.info.userId
      && r.value.user == ss[e.info.userSid]
    ensures r.Success? && cs.Some? ==> r.value == NodeInChangeset(r.value, cs.value)
  {
    if tags.Failure? then Failure(tags.error) else
      var info := e.info;
      var n := Node(
        e.id, e.lat, e.lon, ss[info.userSid], info.userId, info.visible, info.version,
        info.changesetId, UnixToTime(info.timestamp),
        UnixToTimePointer(GetOrZero(info.committed)), tags.value);
      Success(if cs.Some? then NodeInChangeset(n, cs.value) else n)
  }

  /** Single-node round trip with changeset data: the node comes back with its timestamps settled
      and everything else unchanged (given that `tagsFromStrings` returns its tags). */
  lemma NodeRoundTrip(n: Node, keys: seq<nat>, vals: seq<nat>, dict: Dict, ss: seq<string>)
    requires Interned(dict, ss) && n.user in dict
    requires InRange(W32, n.version) && InRange(W32, n.userId)
    ensures UnmarshalNode(MarshalNode(n, keys, vals, dict, true), ss, None, Success(n.tags))
            == Success(SettleNode(n))
  {
    CommittedRoundTrip(n.committed);
  }

  /** Single-node round trip inside a changeset: the context's values replace the node's. */
  lemma NodeRoundTripInChangeset(n: Node, keys: seq<nat>, vals: seq<nat>, dict: Dict,
                                 ss: seq<string>, cs: Changeset)
    requires |ss| > 0 && InRange(W32, n.version)
    ensures UnmarshalNode(MarshalNode(n, keys, vals, dict, false), ss, Some(cs), Success(n.tags))
            == Success(NodeInChangeset(SettleNode(n), cs))
  {
    CommittedRoundTrip(n.committed);
  }

  // ---------------------------------------------------------------- ways

  /** `marshalWay` (without its updates). */
  function MarshalWay(w: Way, keys: seq<nat>, vals: seq<nat>, dict: Dict, includeChangeset: bool): (e: Wire.Way)
    requires includeChangeset ==> w.user in dict
    ensures |e.refs| == |w.nodes|
    ensures e.denseMembers.Some? <==> |w.nodes| > 0 && w.nodes[0].version != 0
  {
    Wire.Way(
      w.id, keys, vals,
      MarshalInfo(w.version, w.timestamp, w.visible, w.committed, w.changesetId, w.userId, w.user,
                  dict, includeChangeset),
      if |w.nodes| > 0 then EncodeWayNodeIDs(w.nodes) else [],
      WayDenseBlock(w.nodes))
  }

  /** A way as decoded under a changeset context. */
  function WayInChangeset(w: Way, c: Changeset): Way
  {
    w.(changesetId := c.id, userId := c.userId, user := c.user)
  }

  /** `unmarshalWay` (without its updates). */
  function UnmarshalWay(e: Wire.Way, ss: seq<string>, cs: Option<Changeset>,
                           tags: Result<seq<Tag>, string>): (r: Result<Way, string>)
    requires tags.Success? ==>
      e.info.userSid < |ss| && WayDenseReadable(DecodeWayNodeIDs(e.refs), e.denseMembers)
    ensures r.Failure? <==> tags.Failure?
    ensures tags.Failure? ==> r.error == tags.error
    ensures r.Success? ==> r.value.tags == tags.value && |r.value.nodes| == |e.refs|
    ensures r.Success? ==> WayNodeIds(r.value.nodes) == Delta.Decode(W64, e.refs)
    ensures r.Success? ==>
      && r.value.id == e.id
      && r.value.nodes == DecodeDenseWayNodes(DecodeWayNodeIDs(e.refs), e.denseMembers)
    ensures r.Success? ==>
      && r.value.timestamp == UnixToTime(e.info.timestamp)
      && r.value.committed == UnixToTimePointer(GetOrZero(e.info.committed))
      && r.value.version == e.info.version && r.value.visible == e.info.visible
    ensures r.Success? && cs.None? ==>
      && r.value.changesetId == e.info.changesetId && r.value.userId == e.info.userId
      && r.value.user == ss[e.info.userSid]
    ensures r.Success? && cs.Some? ==> r.value == WayInChangeset(r.value, cs.value)
  {
    if tags.Failure? then Failure(tags.error) else
      var info := e.info;
      var w := Way(
        e.id, ss[info.userSid], info.userId, info.visible, info.version, info.changesetId,
        UnixToTime(info.timestamp), UnixToTimePointer(GetOrZero(info.committed)), tags.value,
        DecodeDenseWayNodes(DecodeWayNodeIDs(e.refs), e.denseMembers));
      Success(if cs.Some? then WayInChangeset(w, cs.value) else w)
  }

  /** A way after marshal and unmarshal: timestamps settled; node snapshots kept only when the
      first reference carries a version. */
  function SettleWay(w: Way): Way
  {
    w.(timestamp := Settle(w.timestamp), committed := SettleOpt(w.committed),
       nodes := SettleWayNodes(w.nodes))
  }

  /** Single-way round trip with changeset data. */
  lemma WayRoundTrip(w: Way, keys: seq<nat>, vals: seq<nat>, dict: Dict, ss: seq<string>)
    requires Interned(dict, ss) && w.user in dict
    requires InRange(W32, w.version) && InRange(W32, w.userId) && WayNodesFit(w.nodes)
    ensures UnmarshalWay(MarshalWay(w, keys, vals, dict, true), ss, None, Success(w.tags))
            == Success(SettleWay(w))
  {
    CommittedRoundTrip(w.committed);
    WayNodesRoundTrip(w.nodes);
    assert MarshalWay(w, keys, vals, dict, true).refs == EncodeWayNodeIDs(w.nodes);
  }

  // ---------------------------------------------------------------- relations

  /** `marshalRelation` (without its updates). */
  function MarshalRelation(rel: Relation, keys: seq<nat>, vals: seq<nat>, dict: Dict,
                           includeChangeset: bool): (e: Wire.Relation)
    requires RolesInterned(rel.members, dict)
    requires includeChangeset ==> rel.user in dict
    ensures |e.roles| == |e.refs| == |e.types| == |rel.members|
    ensures e.denseMembers.Some? <==> |rel.members| > 0 && rel.members[0].version != 0
  {
    var c := EncodeMembers(rel.members, dict);
    Wire.Relation(
      rel.id, keys, vals,
      MarshalInfo(rel.version, rel.timestamp, rel.visible, rel.committed, rel.changesetId,
                  rel.userId, rel.user, dict, includeChangeset),
      c.roles, c.refs, c.types,
      RelationDenseBlock(rel.members))
  }

  /** A relation as decoded under a changeset context. */
  function RelationInChangeset(rel: Relation, c: Changeset): Relation
  {
    rel.(changesetId := c.id, userId := c.userId, user := c.user)
  }

  /** `unmarshalRelation` reads the member columns and the dense block without going out of range. */
  predicate RelationReadable(e: Wire.Relation, ss: seq<string>)
  {
    e.info.userSid < |ss|
    && MembersReadable(ss, e.roles, e.refs, e.types)
    && MemberDenseReadable(DecodeMembers(ss, e.roles, e.refs, e.types), e.denseMembers)
  }

  /** `unmarshalRelation` (without its updates). */
  function UnmarshalRelation(e: Wire.Relation, ss: seq<string>, cs: Option<Changeset>,
                                tags: Result<seq<Tag>, string>): (r: Result<Relation, string>)
    requires tags.Success? ==> RelationReadable(e, ss)
    ensures r.Failure? <==> tags.Failure?
    ensures tags.Failure? ==> r.error == tags.error
    ensures r.Success? ==> r.value.tags == tags.value && |r.value.members| == |e.roles|
    ensures r.Success? ==> forall i :: 0 <= i < |e.roles| ==>
      r.value.members[i].role == ss[e.roles[i]] && r.value.members[i].kind == WireToType(e.types[i])
    ensures r.Success? ==>
      && r.value.id == e.id
      && r.value.members == DecodeDenseMembers(DecodeMembers(ss, e.roles, e.refs, e.types), e.denseMembers)
    ensures r.Success? ==>
      && r.value.timestamp == UnixToTime(e.info.timestamp)
      && r.value.committed == UnixToTimePointer(GetOrZero(e.info.committed))
      && r.value.version == e.info.version && r.value.visible == e.info.visible
    ensures r.Success? && cs.None? ==>
      && r.value.changesetId == e.info.changesetId && r.value.userId == e.info.userId
      && r.value.user == ss[e.info.userSid]
    ensures r.Success? && cs.Some? ==> r.value == RelationInChangeset(r.value, cs.value)
  {
    if tags.Failure? then Failure(tags.error) else
      var info := e.info;
      var plain := DecodeMembers(ss, e.roles, e.refs, e.types);
      var rel := Relation(
        e.id, ss[info.userSid], info.userId, info.visible, info.version, info.changesetId,
        UnixToTime(info.timestamp), UnixToTimePointer(GetOrZero(info.committed)), tags.value,
        DecodeDenseMembers(plain, e.denseMembers));
      Success(if cs.Some? then RelationInChangeset(rel, cs.value) else rel)
  }

  /** A relation after marshal and unmarshal: timestamps settled, members as `SettleMember`
      describes. */
  function SettleRelation(rel: Relation): Relation
  {
    rel.(timestamp := Settle(rel.timestamp), committed := SettleOpt(rel.committed),
         members := SettleMembers(rel.members))
  }

  /** Single-relation round trip with changeset data. */
  lemma RelationRoundTrip(rel: Relation, keys: seq<nat>, vals: seq<nat>, dict: Dict, ss: seq<string>)
    requires Interned(dict, ss) && rel.user in dict && RolesInterned(rel.members, dict)
    requires InRange(W32, rel.version) && InRange(W32, rel.userId) && MembersFit(rel.members)
    ensures RelationReadable(MarshalRelation(rel, keys, vals, dict, true), ss)
    ensures UnmarshalRelation(MarshalRelation(rel, keys, vals, dict, true), ss, None, Success(rel.tags))
            == Success(SettleRelation(rel))
  {
    CommittedRoundTrip(rel.committed);
    MembersRoundTrip(rel.members, dict, ss);
  }
}

=== FILE: int_width.dfy ===
/** Fixed-width two's-complement integers, as Go's `int32` and `int64` behave: every value is
    an unbounded `int` here, and a conversion or an overflowing `+`/`-` is written out as `Wrap`. */
module IntWidth {

  datatype Width = W32 | W64

  /** 2^(bits-1): the first value that no longer fits. */
  function Half(w: Width): int
  {
    match w
    case W32 => 0x8000_0000
    case W64 => 0x8000_0000_0000_0000
  }

  /** 2^bits: arithmetic at width `w` is arithmetic modulo this. */
  function Modulus(w: Width): int
  {
    2 * Half(w)
  }

  predicate InRange(w: Width, x: int)
  {
    -Half(w) <= x < Half(w)
  }

  /** Every element is a value of the Go type of width `w`. */
  predicate AllInRange(w: Width, s: seq<int>)
  {
    forall i :: 0 <= i < |s| ==> InRange(w, s[i])
  }

  /** The value Go produces for `x` after truncation to `w` bits (a conversion such as `int32(x)`,
      or the result of an overflowing `+`/`-`). */
  function Wrap(w: Width, x: int): (r: int)
    ensures InRange(w, r)
    ensures InRange(w, x) ==> r == x
  {
    match w
    case W32 => (x + 0x8000_0000) % 0x1_0000_0000 - 0x8000_0000
    case W64 => (x + 0x8000_0000_0000_0000) % 0x1_0000_0000_0000_0000 - 0x8000_0000_0000_0000
  }

  /** Adding a multiple of 2^bits does not change the truncated value. */
  lemma WrapShift(w: Width, x: int, k: int)
    ensures Wrap(w, x + k * Modulus(w)) == Wrap(w, x)
  {
    var m := Modulus(w);
    var a := x + Half(w);
    var q, r := a / m, a % m;
    var q', r' := (a + k * m) / m, (a + k * m) % m;
    assert (q' - q - k) * m == r - r';
  }

  /** The truncated value differs from `x` by a multiple of 2^bits. */
  lemma WrapOffset(w: Width, x: int) returns (k: int)
    ensures x == Wrap(w, x) + k * Modulus(w)
  {
    k := (x + Half(w)) / Modulus(w);
  }

  /** Truncating an intermediate sum early gives the same result as truncating once at the end:
      this is why Go's wrapping `+` and `-` still round-trip. */
  lemma {:induction false} WrapAdd(w: Width, a: int, b: int)
    ensures Wrap(w, Wrap(w, a) + b) == Wrap(w, a + b)
  {
    var k := WrapOffset(w, a);
    assert a + b == (Wrap(w, a) + b) + k * Modulus(w);
    WrapShift(w, Wrap(w, a) + b, k);
  }

  /** Go's `v - prev` followed by `prev + (v - prev)` gives `v` back, overflow or not. */
  lemma AddSubCancel(w: Width, p: int, s: int)
    requires InRange(w, s)
    ensures Wrap(w, p + Wrap(w, s - p)) == s
  {
    WrapAdd(w, s - p, p);
    assert Wrap(w, s - p) + p == p + Wrap(w, s - p);
  }

  /** Go's `prev + d` followed by `(prev + d) - prev` gives `d` back, overflow or not. */
  lemma SubAddCancel(w: Width, p: int, d: int)
    requires InRange(w, d)
    ensures Wrap(w, Wrap(w, p + d) - p) == d
  {
    WrapAdd(w, p + d, -p);
    assert Wrap(w, p + d) + -p == Wrap(w, p + d) - p;
  }
}

=== FILE: member_types.dfy ===
/** `memberTypeMap` and `memberTypeMapRev` of marshal.go: relation member kinds to the wire
    enum and back. A Go map read with a missing key yields the zero value, so an unknown kind
    encodes as the enum's zero (NODE) and an unknown enum value decodes to the empty kind. */
module MemberTypes {

  const TYPE_NODE: string := "node"
  const TYPE_WAY: string := "way"
  const TYPE_RELATION: string := "relation"

  /** `osmpb.Relation_MemberType` values, numbered as in the OSM PBF format. */
  const WIRE_NODE: int := 0
  const WIRE_WAY: int := 1
  const WIRE_RELATION: int := 2

  /** The three kinds a relation member can have. */
  predicate IsMemberKind(t: string)
  {
    t == TYPE_NODE || t == TYPE_WAY || t == TYPE_RELATION
  }

  /** A value of the wire enum. */
  predicate IsWireKind(k: int)
  {
    k == WIRE_NODE || k == WIRE_WAY || k == WIRE_RELATION
  }

  /** `memberTypeMap[t]`. */
  function TypeToWire(t: string): (k: int)
    ensures IsWireKind(k)
    ensures IsMemberKind(t) ==> WireToType(k) == t
    ensures !IsMemberKind(t) ==> k == WIRE_NODE
  {
    if t == TYPE_NODE then WIRE_NODE
    else if t == TYPE_WAY then WIRE_WAY
    else if t == TYPE_RELATION then WIRE_RELATION
    else WIRE_NODE
  }

  /** `memberTypeMapRev[k]`. */
  function WireToType(k: int): (t: string)
    ensures IsMemberKind(t) <==> IsWireKind(k)
    ensures !IsWireKind(k) ==> t == ""
  {
    if k == WIRE_NODE then TYPE_NODE
    else if k == WIRE_WAY then TYPE_WAY
    else if k == WIRE_RELATION then TYPE_RELATION
    else ""
  }

  /** The two maps are mutual inverses on {node, way, relation} and its three enum values. */
  lemma MapsAreInverse(t: string, k: int)
    ensures IsMemberKind(t) ==> WireToType(TypeToWire(t)) == t
    ensures IsWireKind(k) ==> TypeToWire(WireToType(k)) == k
  {
  }

  /** What a member kind becomes after marshal and unmarshal: itself for the three member
      kinds, "node" for any other kind (the encode-side map miss). */
  lemma KindAfterRoundTrip(t: string)
    ensures WireToType(TypeToWire(t)) == (if IsMemberKind(t) then t else TYPE_NODE)
  {
  }
}

=== FILE: members.dfy ===
/** Node references of ways and members of relations: `encodeWayNodeIDs` / `decodeWayNodeIDs`,
    `encodeDenseWayNodes` / `decodeDenseWayNodes`, the member columns of `marshalRelation`,
    `decodeMembers`, and `encodeDenseMembers` / `decodeDenseMembers`. */
module Members {
  import opened Wrappers
  import opened IntWidth
  import opened Delta
  import opened Osm
  import opened StringTable
  import opened MemberTypes
  import Wire

  // ---------------------------------------------------------------- way node references

  function WayNodeIds(ws: seq<WayNode>): seq<int>
  {
    seq(|ws|, i requires 0 <= i < |ws| => ws[i].id)
  }

  /** `encodeWayNodeIDs`: each node ID minus the previous one (the first minus zero), which is
      the 64-bit delta encoding of the ID column. */
  function EncodeWayNodeIDs(ws: seq<WayNode>): (r: seq<int>)
    ensures r == Delta.Encode(W64, WayNodeIds(ws))
  {
    var r := seq(|ws|, i requires 0 <= i < |ws| => Wrap(W64, ws[i].id - (if i == 0 then 0 else ws[i - 1].id)));
    assert r == Delta.Encode(W64, WayNodeIds(ws)) by {
      EncodeWayNodeIDsIsDelta(ws, r);
    }
    r
  }

  /** The loop of `encodeWayNodeIDs` computes the delta codec applied to the node IDs. */
  lemma EncodeWayNodeIDsIsDelta(ws: seq<WayNode>, r: seq<int>)
    requires r == seq(|ws|, i requires 0 <= i < |ws| => Wrap(W64, ws[i].id - (if i == 0 then 0 else ws[i - 1].id)))
    ensures r == Delta.Encode(W64, WayNodeIds(ws))
  {
    var ids := WayNodeIds(ws);
    forall i | 0 <= i < |ids|
      ensures r[i] == Wrap(W64, ids[i] - Pred(ids, i))
    {
    }
    EncodeDeterminedPointwise(W64, ids, r);
  }

  /** `decodeWayNodeIDs`: one reference per delta, carrying only the decoded node ID; an empty
      column decodes to no references (Go's nil). */
  function DecodeWayNodeIDs(diff: seq<int>): (ws: seq<WayNode>)
    ensures |ws| == |diff|
    ensures WayNodeIds(ws) == Delta.Decode(W64, diff)
    ensures forall i :: 0 <= i < |ws| ==> ws[i] == WayNode(ws[i].id, 0, 0, 0, 0)
  {
    if |diff| == 0 then [] else
      var ids := Delta.Decode(W64, diff);
      seq(|diff|, i requires 0 <= i < |diff| => WayNode(ids[i], 0, 0, 0, 0))
  }

  /** The references of `decodeWayNodeIDs(encodeWayNodeIDs(ws))` carry the IDs of `ws`, in order. */
  lemma WayNodeIDsRoundTrip(ws: seq<WayNode>)
    requires AllInRange(W64, WayNodeIds(ws))
    ensures WayNodeIds(DecodeWayNodeIDs(EncodeWayNodeIDs(ws))) == WayNodeIds(ws)
  {
    DecodeEncode(W64, WayNodeIds(ws));
  }

  // ---------------------------------------------------------------- dense way nodes

  /** Every snapshot field of every reference is a value of its Go wire type. */
  predicate WayNodesFit(ws: seq<WayNode>)
  {
    forall i :: 0 <= i < |ws| ==>
      && InRange(W64, ws[i].id)
      && InRange(W32, ws[i].version)
      && InRange(W64, ws[i].changesetId)
      && InRange(W64, ws[i].lat)
      && InRange(W64, ws[i].lon)
  }

  /** `encodeDenseWayNodes`: the snapshot columns, changeset IDs and coordinates delta-encoded. */
  function EncodeDenseWayNodes(ws: seq<WayNode>): (d: Wire.DenseMembers)
    ensures |d.versions| == |d.changesetIds| == |d.lats| == |d.lons| == |ws|
  {
    Wire.DenseMembers(
      seq(|ws|, i requires 0 <= i < |ws| => Wrap(W32, ws[i].version)),
      Delta.Encode(W64, seq(|ws|, i requires 0 <= i < |ws| => ws[i].changesetId)),
      Delta.Encode(W64, seq(|ws|, i requires 0 <= i < |ws| => ws[i].lat)),
      Delta.Encode(W64, seq(|ws|, i requires 0 <= i < |ws| => ws[i].lon)))
  }

  /** The dense block `marshalWay` attaches: only when the first reference carries a version,
      and then it covers every reference. */
  function WayDenseBlock(ws: seq<WayNode>): (b: Option<Wire.DenseMembers>)
    ensures b.Some? <==> |ws| > 0 && ws[0].version != 0
    ensures b.Some? ==> |b.value.versions| == |ws|
  {
    if |ws| > 0 && ws[0].version != 0 then Some(EncodeDenseWayNodes(ws)) else None
  }

  /** `decodeDenseWayNodes` reads every column at every index below `|versions|`. */
  predicate WayDenseReadable(ws: seq<WayNode>, enc: Option<Wire.DenseMembers>)
  {
    enc.Some? ==>
      var d := enc.value;
      |d.versions| <= |ws| && |d.versions| <= |d.changesetIds|
      && |d.versions| <= |d.lats| && |d.versions| <= |d.lons|
  }

  /** `decodeDenseWayNodes`: overwrite the snapshot of the first `|versions|` references. */
  function DecodeDenseWayNodes(ws: seq<WayNode>, enc: Option<Wire.DenseMembers>): (r: seq<WayNode>)
    requires WayDenseReadable(ws, enc)
    ensures |r| == |ws| && WayNodeIds(r) == WayNodeIds(ws)
    ensures enc.None? ==> r == ws
    ensures enc.Some? ==> forall i :: |enc.value.versions| <= i < |ws| ==> r[i] == ws[i]
    ensures enc.Some? ==> forall i :: 0 <= i < |enc.value.versions| ==>
      && r[i].version == enc.value.versions[i]
      && r[i].changesetId == Delta.Decode(W64, enc.value.changesetIds)[i]
      && r[i].lat == Delta.Decode(W64, enc.value.lats)[i]
      && r[i].lon == Delta.Decode(W64, enc.value.lons)[i]
  {
    if enc.None? then ws else
      var d := enc.value;
      var cs := Delta.Decode(W64, d.changesetIds);
      var lats := Delta.Decode(W64, d.lats);
      var lons := Delta.Decode(W64, d.lons);
      seq(|ws|, i requires 0 <= i < |ws| =>
        if i < |d.versions|
        then ws[i].(version := d.versions[i], changesetId := cs[i], lat := lats[i], lon := lons[i])
        else ws[i])
  }

  /** A reference with its snapshot cleared. */
  function WithoutSnapshot(n: WayNode): WayNode
  {
    WayNode(n.id, 0, 0, 0, 0)
  }

  /** Way references as they come back from marshal and unmarshal: unchanged when the first one
      carries a version, and all without their snapshots otherwise. */
  function SettleWayNodes(ws: seq<WayNode>): seq<WayNode>
  {
    if |ws| > 0 && ws[0].version != 0 then ws
    else seq(|ws|, i requires 0 <= i < |ws| => WithoutSnapshot(ws[i]))
  }

  /** Way references after `marshalWay` and `unmarshalWay`: every ID is kept; every snapshot is
      kept when the first reference carries a version, and every snapshot is lost otherwise
      (even those of later references). */
  lemma {:induction false} WayNodesRoundTrip(ws: seq<WayNode>)
    requires WayNodesFit(ws)
    ensures WayDenseReadable(DecodeWayNodeIDs(EncodeWayNodeIDs(ws)), WayDenseBlock(ws))
    ensures DecodeDenseWayNodes(DecodeWayNodeIDs(EncodeWayNodeIDs(ws)), WayDenseBlock(ws)) == SettleWayNodes(ws)
  {
    var ids := WayNodeIds(ws);
    DecodeEncode(W64, ids);
    var plain := DecodeWayNodeIDs(EncodeWayNodeIDs(ws));
    assert forall i :: 0 <= i < |ws| ==> plain[i].id == WayNodeIds(plain)[i] == ids[i];
    if |ws| > 0 && ws[0].version != 0 {
      var cs := seq(|ws|, i requires 0 <= i < |ws| => ws[i].changesetId);
      var lats := seq(|ws|, i requires 0 <= i < |ws| => ws[i].lat);
      var lons := seq(|ws|, i requires 0 <= i < |ws| => ws[i].lon);
      DecodeEncode(W64, cs);
      DecodeEncode(W64, lats);
      DecodeEncode(W64, lons);
      var r := DecodeDenseWayNodes(plain, WayDenseBlock(ws));
      forall i | 0 <= i < |ws|
        ensures r[i] == ws[i]
      {
      }
    } else {
      var r := DecodeDenseWayNodes(plain, WayDenseBlock(ws));
      assert forall i :: 0 <= i < |ws| ==> r[i] == SettleWayNodes(ws)[i];
    }
  }

  // ---------------------------------------------------------------- relation members

  /** Every encoded field of every member is a value of its Go wire type. */
  predicate MembersFit(ms: seq<Member>)
  {
    forall i :: 0 <= i < |ms| ==>
      && InRange(W64, ms[i].ref)
      && InRange(W32, ms[i].version)
      && InRange(W64, ms[i].changesetId)
      && InRange(W64, ms[i].lat)
      && InRange(W64, ms[i].lon)
  }

  predicate RolesInterned(ms: seq<Member>, dict: Dict)
  {
    forall i :: 0 <= i < |ms| ==> ms[i].role in dict
  }

  /** The three parallel member columns of `osmpb.Relation`. */
  datatype MemberColumns = MemberColumns(roles: seq<nat>, refs: seq<int>, types: seq<int>)

  /** The member loop of `marshalRelation`: role index, delta-encoded reference, wire kind. */
  function EncodeMembers(ms: seq<Member>, dict: Dict): (c: MemberColumns)
    requires RolesInterned(ms, dict)
    ensures |c.roles| == |c.refs| == |c.types| == |ms|
    ensures forall i :: 0 <= i < |ms| ==> IsWireKind(c.types[i])
  {
    var refs := seq(|ms|, i requires 0 <= i < |ms| => ms[i].ref);
    MemberColumns(
      seq(|ms|, i requires 0 <= i < |ms| => dict[ms[i].role]),
      Delta.Encode(W64, refs),
      seq(|ms|, i requires 0 <= i < |ms| => TypeToWire(ms[i].kind)))
  }

  /** `decodeMembers` reads `refs` and `types` at every index of `roles`, and resolves every
      role index in the table. */
  predicate MembersReadable(ss: seq<string>, roles: seq<nat>, refs: seq<int>, types: seq<int>)
  {
    |roles| == 0 ||
      (|roles| <= |refs| && |roles| <= |types|
       && forall i :: 0 <= i < |roles| ==> roles[i] < |ss|)
  }

  /** `decodeMembers`: one member per role, with the decoded reference and the mapped kind and no
      snapshot. */
  function DecodeMembers(ss: seq<string>, roles: seq<nat>, refs: seq<int>, types: seq<int>): (ms: seq<Member>)
    requires MembersReadable(ss, roles, refs, types)
    ensures |ms| == |roles|
    ensures forall i :: 0 <= i < |ms| ==>
      && ms[i].role == ss[roles[i]]
      && ms[i].ref == Delta.Decode(W64, refs)[i]
      && ms[i].kind == WireToType(types[i])
    ensures forall i :: 0 <= i < |ms| ==>
      ms[i].version == 0 && ms[i].changesetId == 0 && ms[i].lat == 0 && ms[i].lon == 0
  {
    if |roles| == 0 then [] else
      var ids := Delta.Decode(W64, refs);
      seq(|roles|, i requires 0 <= i < |roles| =>
        Member(WireToType(types[i]), ids[i], ss[roles[i]], 0, 0, 0, 0))
  }

  /** The `nodes` counter of `encodeDenseMembers`. */
  function CountNodeMembers(ms: seq<Member>): (c: nat)
    ensures c <= |ms|
    ensures c > 0 <==> exists i :: 0 <= i < |ms| && ms[i].kind == TYPE_NODE
    decreases |ms|
  {
    if |ms| == 0 then 0
    else (if ms[0].kind == TYPE_NODE then 1 else 0) + CountNodeMembers(ms[1..])
  }

  predicate HasNodeMember(ms: seq<Member>)
  {
    exists i :: 0 <= i < |ms| && ms[i].kind == TYPE_NODE
  }

  /** `encodeDenseMembers`: versions and delta-encoded changeset IDs always; coordinates only
      when at least one member is a node. */
  function EncodeDenseMembers(ms: seq<Member>): (d: Wire.DenseMembers)
    ensures |d.versions| == |d.changesetIds| == |ms|
    ensures |d.lats| > 0 <==> HasNodeMember(ms)
    ensures |d.lats| > 0 ==> |d.lats| == |d.lons| == |ms|
    ensures |d.lats| == 0 ==> |d.lons| == 0
  {
    var nodes := CountNodeMembers(ms);
    var lats := seq(|ms|, i requires 0 <= i < |ms| => ms[i].lat);
    var lons := seq(|ms|, i requires 0 <= i < |ms| => ms[i].lon);
    Wire.DenseMembers(
      seq(|ms|, i requires 0 <= i < |ms| => Wrap(W32, ms[i].version)),
      Delta.Encode(W64, seq(|ms|, i requires 0 <= i < |ms| => ms[i].changesetId)),
      if nodes > 0 then Delta.Encode(W64, lats) else [],
      if nodes > 0 then Delta.Encode(W64, lons) else [])
  }

  /** The dense block `marshalRelation` attaches: only when the first member carries a version,
      and then it covers every member. */
  function RelationDenseBlock(ms: seq<Member>): (b: Option<Wire.DenseMembers>)
    ensures b.Some? <==> |ms| > 0 && ms[0].version != 0
    ensures b.Some? ==> |b.value.versions| == |ms| > 0
  {
    if |ms| > 0 && ms[0].version != 0 then Some(EncodeDenseMembers(ms)) else None
  }

  /** `decodeDenseMembers` reads the columns it uses at every index below `|versions|`. */
  predicate MemberDenseReadable(ms: seq<Member>, enc: Option<Wire.DenseMembers>)
  {
    enc.Some? && |enc.value.versions| > 0 ==>
      var d := enc.value;
      |d.versions| <= |ms| && |d.versions| <= |d.changesetIds|
      && (|d.lats| > 0 ==> |d.versions| <= |d.lats| && |d.versions| <= |d.lons|)
  }

  /** `decodeDenseMembers`: overwrite version and changeset of the first `|versions|` members,
      and their coordinates when the block has any. */
  function DecodeDenseMembers(ms: seq<Member>, enc: Option<Wire.DenseMembers>): (r: seq<Member>)
    requires MemberDenseReadable(ms, enc)
    ensures |r| == |ms|
    ensures enc.None? || |enc.value.versions| == 0 ==> r == ms
    ensures forall i :: 0 <= i < |ms| ==>
      r[i].kind == ms[i].kind && r[i].ref == ms[i].ref && r[i].role == ms[i].role
    ensures enc.Some? ==> forall i :: |enc.value.versions| <= i < |ms| ==> r[i] == ms[i]
    ensures enc.Some? ==> forall i :: 0 <= i < |enc.value.versions| ==>
      && r[i].version == enc.value.versions[i]
      && r[i].changesetId == Delta.Decode(W64, enc.value.changesetIds)[i]
      && (|enc.value.lats| > 0 ==>
            r[i].lat == Delta.Decode(W64, enc.value.lats)[i]
            && r[i].lon == Delta.Decode(W64, enc.value.lons)[i])
      && (|enc.value.lats| == 0 ==> r[i].lat == ms[i].lat && r[i].lon == ms[i].lon)
  {
    if enc.None? || |enc.value.versions| == 0 then ms else
      var d := enc.value;
      var cs := Delta.Decode(W64, d.changesetIds);
      var lats := Delta.Decode(W64, d.lats);
      var lons := Delta.Decode(W64, d.lons);
      seq(|ms|, i requires 0 <= i < |ms| =>
        if i < |d.versions| then
          var m := ms[i].(version := d.versions[i], changesetId := cs[i]);
          if |d.lats| > 0 then m.(lat := lats[i], lon := lons[i]) else m
        else ms[i])
  }

  /** A member after marshal and unmarshal: its kind mapped through the two kind maps, its
      reference and role kept, its snapshot kept only when `snapshot` holds and its coordinates
      only when `coords` holds too. */
  function SettleMember(m: Member, snapshot: bool, coords: bool): Member
  {
    Member(
      if IsMemberKind(m.kind) then m.kind else TYPE_NODE,
      m.ref,
      m.role,
      if snapshot then m.version else 0,
      if snapshot then m.changesetId else 0,
      if snapshot && coords then m.lat else 0,
      if snapshot && coords then m.lon else 0)
  }

  /** The member columns decode to the members without their snapshots. */
  lemma DecodeEncodedMembers(ms: seq<Member>, dict: Dict, ss: seq<string>)
    requires Interned(dict, ss) && RolesInterned(ms, dict) && MembersFit(ms)
    ensures var c := EncodeMembers(ms, dict);
      && MembersReadable(ss, c.roles, c.refs, c.types)
      && var plain := DecodeMembers(ss, c.roles, c.refs, c.types);
      |plain| == |ms| && forall i :: 0 <= i < |ms| ==> plain[i] == SettleMember(ms[i], false, false)
  {
    var refs := seq(|ms|, i requires 0 <= i < |ms| => ms[i].ref);
    DecodeEncode(W64, refs);
  }

  /** The dense member block restores the snapshot of every member, coordinates included
      exactly when some member is a node. */
  lemma DenseMembersRoundTrip(ms: seq<Member>, plain: seq<Member>)
    requires MembersFit(ms) && |ms| > 0
    requires |plain| == |ms| && forall i :: 0 <= i < |ms| ==> plain[i] == SettleMember(ms[i], false, false)
    ensures MemberDenseReadable(plain, Some(EncodeDenseMembers(ms)))
    ensures var r := DecodeDenseMembers(plain, Some(EncodeDenseMembers(ms)));
      |r| == |ms| && forall i :: 0 <= i < |ms| ==> r[i] == SettleMember(ms[i], true, HasNodeMember(ms))
  {
    var cs := seq(|ms|, i requires 0 <= i < |ms| => ms[i].changesetId);
    var lats := seq(|ms|, i requires 0 <= i < |ms| => ms[i].lat);
    var lons := seq(|ms|, i requires 0 <= i < |ms| => ms[i].lon);
    DecodeEncode(W64, cs);
    DecodeEncode(W64, lats);
    DecodeEncode(W64, lons);
  }

  /** Members as they come back from marshal and unmarshal. */
  function SettleMembers(ms: seq<Member>): seq<Member>
  {
    var snapshot := |ms| > 0 && ms[0].version != 0;
    seq(|ms|, i requires 0 <= i < |ms| => SettleMember(ms[i], snapshot, HasNodeMember(ms)))
  }

  /** A member list that agrees with `SettleMembers` at every position is `SettleMembers`. */
  lemma SettledPointwise(ms: seq<Member>, r: seq<Member>)
    requires |r| == |ms|
    requires forall i :: 0 <= i < |ms| ==>
      r[i] == SettleMember(ms[i], |ms| > 0 && ms[0].version != 0, HasNodeMember(ms))
    ensures r == SettleMembers(ms)
  {
  }

  /** Relation members after `marshalRelation` and `unmarshalRelation`: roles, references and
      member kinds survive; the snapshot survives exactly when the first member carries a
      version, and its coordinates only when some member is a node. */
  lemma MembersRoundTrip(ms: seq<Member>, dict: Dict, ss: seq<string>)
    requires Interned(dict, ss) && RolesInterned(ms, dict) && MembersFit(ms)
    ensures var c := EncodeMembers(ms, dict);
      && MembersReadable(ss, c.roles, c.refs, c.types)
      && MemberDenseReadable(DecodeMembers(ss, c.roles, c.refs, c.types), RelationDenseBlock(ms))
    ensures var c := EncodeMembers(ms, dict);
      DecodeDenseMembers(DecodeMembers(ss, c.roles, c.refs, c.types), RelationDenseBlock(ms))
        == SettleMembers(ms)
  {
    DecodeEncodedMembers(ms, dict, ss);
    var c := EncodeMembers(ms, dict);
    var plain := DecodeMembers(ss, c.roles, c.refs, c.types);
    if |ms| > 0 && ms[0].version != 0 {
      DenseMembersRoundTrip(ms, plain);
      SettledPointwise(ms, DecodeDenseMembers(plain, RelationDenseBlock(ms)));
    } else {
      SettledPointwise(ms, plain);
    }
  }
}

=== FILE: osm.dfy ===
/** The in-memory OSM entities that marshal.go converts, restricted to the fields it encodes.
    Coordinates are carried as the fixed-point integers the wire holds (degrees times 10^7);
    timestamps as Unix seconds (see `Timestamps`). */
module Osm {
  import opened Wrappers
  import opened Timestamps

  datatype Tag = Tag(key: string, value: string)

  /** `osm.Node`. */
  datatype Node = Node(
    id: int,
    lat: int,
    lon: int,
    user: string,
    userId: int,
    visible: bool,
    version: int,
    changesetId: int,
    timestamp: Time,
    committed: Option<Time>,
    tags: seq<Tag>)

  /** `osm.WayNode`: a node reference of a way, with the optional snapshot of that node at the
      time of the way's version (all zero when there is none). */
  datatype WayNode = WayNode(id: int, version: int, changesetId: int, lat: int, lon: int)

  /** `osm.Way` (its `Updates` are not part of this model). */
  datatype Way = Way(
    id: int,
    user: string,
    userId: int,
    visible: bool,
    version: int,
    changesetId: int,
    timestamp: Time,
    committed: Option<Time>,
    tags: seq<Tag>,
    nodes: seq<WayNode>)

  /** `osm.Member`: `kind` is the Go `Type` string ("node", "way", "relation", ...). */
  datatype Member = Member(
    kind: string,
    ref: int,
    role: string,
    version: int,
    changesetId: int,
    lat: int,
    lon: int)

  /** `osm.Relation` (its `Updates` are not part of this model). */
  datatype Relation = Relation(
    id: int,
    user: string,
    userId: int,
    visible: bool,
    version: int,
    changesetId: int,
    timestamp: Time,
    committed: Option<Time>,
    tags: seq<Tag>,
    members: seq<Member>)

  /** The parts of `osm.Changeset` that decoding substitutes into every entity. */
  datatype Changeset = Changeset(id: int, userId: int, user: string)

  /** A node after marshal and unmarshal: its timestamps settled by the sentinel codec. */
  function SettleNode(n: Node): Node
  {
    n.(timestamp := Settle(n.timestamp), committed := SettleOpt(n.committed))
  }

  /** A node as decoded under a changeset context. */
  function NodeInChangeset(n: Node, c: Changeset): Node
  {
    n.(changesetId := c.id, userId := c.userId, user := c.user)
  }
}

=== FILE: string_table.dfy ===
/** The string dictionary shared by one encode and one decode. On the encode side the Go
    `stringSet` hands out an index per distinct string (`ss.Add`); it is modelled here by the
    map it holds once the block is encoded. The decode side is the plain table `ss []string`. */
module StringTable {

  /** The encode-side dictionary: string to index. */
  type Dict = map<string, nat>

  /** `dict` and the decode table `ss` describe the same dictionary: every interned string has
      a non-zero index (index 0 is reserved, and the dense tag runs use 0 as terminator), the index
      lies inside `ss`, and `ss` holds the string at that index. */
  predicate Interned(dict: Dict, ss: seq<string>)
  {
    forall s :: s in dict ==> 0 < dict[s] < |ss| && ss[dict[s]] == s
  }

  /** Every index fits in a Go `int32` (the dense user-name column is `[]int32`). */
  predicate FitsInt32(dict: Dict)
  {
    forall s :: s in dict ==> dict[s] < 0x8000_0000
  }

  /** Interning is injective: distinct strings never share an index. */
  lemma InternedInjective(dict: Dict, ss: seq<string>, a: string, b: string)
    requires Interned(dict, ss)
    requires a in dict && b in dict && a != b
    ensures dict[a] != dict[b]
  {
  }
}

=== FILE: tag_runs.dfy ===
/** The flat tag column of dense nodes: `encodeNodesTags` writes, for each node in order, its
    (key index, value index) pairs followed by a 0 terminator; the tag loop of `unmarshalNodes`
    reads it back with one cursor shared by all nodes. */
module TagRuns {
  import opened Osm
  import opened StringTable

  /** One interned tag: the table indices of its key and its value. */
  datatype KeyVal = KeyVal(key: nat, val: nat)

  /** Number of tags over all nodes (`denseNodesResult.TagCount`). */
  function TagCount(ns: seq<Node>): nat
  {
    if |ns| == 0 then 0 else |ns[0].tags| + TagCount(ns[1..])
  }

  /** Every key and value of every tag of `tags` has an index in `dict`. */
  predicate TagsInterned(tags: seq<Tag>, dict: Dict)
  {
    forall i :: 0 <= i < |tags| ==> tags[i].key in dict && tags[i].value in dict
  }

  predicate NodesTagsInterned(ns: seq<Node>, dict: Dict)
  {
    forall i :: 0 <= i < |ns| ==> TagsInterned(ns[i].tags, dict)
  }

  /** The index pairs `ss.Add` hands out for a tag list. */
  function InternTags(tags: seq<Tag>, dict: Dict): (kvs: seq<KeyVal>)
    requires TagsInterned(tags, dict)
    ensures |kvs| == |tags|
    ensures forall i :: 0 <= i < |tags| ==> kvs[i] == KeyVal(dict[tags[i].key], dict[tags[i].value])
  {
    seq(|tags|, i requires 0 <= i < |tags| => KeyVal(dict[tags[i].key], dict[tags[i].value]))
  }

  /** The tags named by a list of index pairs (`Tag{Key: ss[k], Value: ss[v]}`). */
  function ResolveTags(ss: seq<string>, kvs: seq<KeyVal>): (tags: seq<Tag>)
    requires forall i :: 0 <= i < |kvs| ==> kvs[i].key < |ss| && kvs[i].val < |ss|
    ensures |tags| == |kvs|
  {
    seq(|kvs|, i requires 0 <= i < |kvs| => Tag(ss[kvs[i].key], ss[kvs[i].val]))
  }

  /** Resolving the indices of interned tags gives the tags back. */
  lemma ResolveInterned(tags: seq<Tag>, dict: Dict, ss: seq<string>)
    requires Interned(dict, ss) && TagsInterned(tags, dict)
    ensures var kvs := InternTags(tags, dict);
      (forall i :: 0 <= i < |kvs| ==> kvs[i].key < |ss| && kvs[i].val < |ss|)
      && ResolveTags(ss, kvs) == tags
  {
  }

  /** One node's run: its pairs flattened, then the terminator. */
  function NodeRun(tags: seq<Tag>, dict: Dict): (r: seq<nat>)
    requires TagsInterned(tags, dict)
    ensures |r| == 2 * |tags| + 1
    decreases |tags|
  {
    if |tags| == 0 then [0]
    else [dict[tags[0].key], dict[tags[0].value]] + NodeRun(tags[1..], dict)
  }

  /** `encodeNodesTags`: the runs of all nodes, in node order. */
  function EncodeNodesTags(ns: seq<Node>, dict: Dict): (r: seq<nat>)
    requires NodesTagsInterned(ns, dict)
    ensures |r| == 2 * TagCount(ns) + |ns|
    decreases |ns|
  {
    if |ns| == 0 then [] else NodeRun(ns[0].tags, dict) + EncodeNodesTags(ns[1..], dict)
  }

  /** A node with no tags contributes exactly the terminator. */
  lemma UntaggedNodeRun(n: Node, dict: Dict)
    requires n.tags == []
    ensures NodeRun(n.tags, dict) == [0]
  {
  }

  /** A node's run ends with its terminator. */
  lemma {:induction false} NodeRunTerminator(tags: seq<Tag>, dict: Dict)
    requires TagsInterned(tags, dict)
    ensures NodeRun(tags, dict)[2 * |tags|] == 0
    decreases |tags|
  {
    if |tags| > 0 {
      NodeRunTerminator(tags[1..], dict);
      var tail := NodeRun(tags[1..], dict);
      assert NodeRun(tags, dict)[2 * |tags|] == tail[2 * |tags[1..]|];
    }
  }

  /** With non-zero indices, a node's run holds exactly one 0: its terminator, at its end. */
  lemma {:induction false} NodeRunZeros(tags: seq<Tag>, dict: Dict, ss: seq<string>)
    requires Interned(dict, ss) && TagsInterned(tags, dict)
    ensures multiset(NodeRun(tags, dict))[0] == 1
    ensures NodeRun(tags, dict)[2 * |tags|] == 0
    decreases |tags|
  {
    NodeRunTerminator(tags, dict);
    if |tags| > 0 {
      NodeRunZeros(tags[1..], dict, ss);
      var k, v := dict[tags[0].key], dict[tags[0].value];
      assert k != 0 && v != 0;
      var tail := NodeRun(tags[1..], dict);
      assert NodeRun(tags, dict) == [k, v] + tail;
      assert multiset([k, v] + tail) == multiset([k, v]) + multiset(tail);
    }
  }

  /** The encoded column holds exactly one terminator per node. */
  lemma {:induction false} EncodeNodesTagsZeros(ns: seq<Node>, dict: Dict, ss: seq<string>)
    requires Interned(dict, ss) && NodesTagsInterned(ns, dict)
    ensures multiset(EncodeNodesTags(ns, dict))[0] == |ns|
    decreases |ns|
  {
    if |ns| > 0 {
      NodeRunZeros(ns[0].tags, dict, ss);
      EncodeNodesTagsZeros(ns[1..], dict, ss);
      assert multiset(EncodeNodesTags(ns, dict))
        == multiset(NodeRun(ns[0].tags, dict)) + multiset(EncodeNodesTags(ns[1..], dict));
    }
  }

  /** The inner `for encoded.KeysVals[tagLoc] != 0` loop finds a terminator starting at `loc`
      without running off the end of the column (otherwise the Go code panics). */
  predicate RunTerminated(kv: seq<nat>, loc: nat)
    decreases |kv| - loc
  {
    loc < |kv| && (kv[loc] == 0 || (loc + 1 < |kv| && RunTerminated(kv, loc + 2)))
  }

  /** The pairs one node reads starting at `loc`, up to (not including) the terminator. */
  function ReadRun(kv: seq<nat>, loc: nat): (kvs: seq<KeyVal>)
    requires RunTerminated(kv, loc)
    ensures loc + 2 * |kvs| < |kv| && kv[loc + 2 * |kvs|] == 0
    ensures forall i :: 0 <= i < |kvs| ==>
      kvs[i] == KeyVal(kv[loc + 2 * i], kv[loc + 2 * i + 1]) && kvs[i].key != 0
    decreases |kv| - loc
  {
    if kv[loc] == 0 then [] else [KeyVal(kv[loc], kv[loc + 1])] + ReadRun(kv, loc + 2)
  }

  /** `RunTerminated` holds exactly when the column has a 0 at an even offset `2k` from the
      cursor, before which every even offset holds a non-zero key (the converse direction is
      `ReadRun`'s contract); the inner loop then reads `k` pairs. */
  lemma {:induction false} RunTerminatedExactly(kv: seq<nat>, loc: nat, k: nat)
    requires loc + 2 * k < |kv| && kv[loc + 2 * k] == 0
    requires forall j :: 0 <= j < k ==> kv[loc + 2 * j] != 0
    ensures RunTerminated(kv, loc) && |ReadRun(kv, loc)| == k
    decreases k
  {
    if k > 0 {
      assert kv[loc + 2 * 0] != 0;
      forall j | 0 <= j < k - 1
        ensures kv[loc + 2 + 2 * j] != 0
      {
        assert kv[loc + 2 * (j + 1)] != 0;
      }
      RunTerminatedExactly(kv, loc + 2, k - 1);
    }
  }

  /** The cursor after one node's run: one past its terminator. */
  function NextRun(kv: seq<nat>, loc: nat): nat
    requires RunTerminated(kv, loc)
  {
    loc + 2 * |ReadRun(kv, loc)| + 1
  }

  /** Each of the next `n` nodes finds its terminator. */
  predicate Framed(kv: seq<nat>, loc: nat, n: nat)
    decreases n
  {
    n == 0 || (RunTerminated(kv, loc) && Framed(kv, NextRun(kv, loc), n - 1))
  }

  /** The tag loop of `unmarshalNodes` for `n` nodes starting at cursor `loc`: the pairs each
      node reads. */
  function WalkRuns(kv: seq<nat>, loc: nat, n: nat): (runs: seq<seq<KeyVal>>)
    requires Framed(kv, loc, n)
    ensures |runs| == n
    ensures n > 0 ==> runs[0] == ReadRun(kv, loc)
    decreases n
  {
    if n == 0 then [] else [ReadRun(kv, loc)] + WalkRuns(kv, NextRun(kv, loc), n - 1)
  }

  /** Where the shared cursor stands after `n` nodes. */
  function WalkCursor(kv: seq<nat>, loc: nat, n: nat): (c: nat)
    requires Framed(kv, loc, n)
    ensures loc <= c
    ensures n > 0 ==> c <= |kv|
    decreases n
  {
    if n == 0 then loc else WalkCursor(kv, NextRun(kv, loc), n - 1)
  }

  /** Node `i` of the walk reads its run where the shared cursor stands after the first `i`
      nodes, and that run is terminated. */
  lemma {:induction false} WalkRunsAt(kv: seq<nat>, loc: nat, n: nat, i: nat)
    requires Framed(kv, loc, n) && i < n
    ensures Framed(kv, loc, i)
    ensures RunTerminated(kv, WalkCursor(kv, loc, i))
    ensures WalkRuns(kv, loc, n)[i] == ReadRun(kv, WalkCursor(kv, loc, i))
    decreases i
  {
    if i > 0 {
      WalkRunsAt(kv, NextRun(kv, loc), n - 1, i - 1);
      assert WalkRuns(kv, loc, n)[i] == WalkRuns(kv, NextRun(kv, loc), n - 1)[i - 1];
    }
  }

  /** Reading a node's run back, wherever it sits in the column, yields that node's pairs. */
  lemma {:induction false} ReadNodeRun(pre: seq<nat>, tags: seq<Tag>, post: seq<nat>, dict: Dict, ss: seq<string>)
    requires Interned(dict, ss) && TagsInterned(tags, dict)
    ensures RunTerminated(pre + NodeRun(tags, dict) + post, |pre|)
    ensures ReadRun(pre + NodeRun(tags, dict) + post, |pre|) == InternTags(tags, dict)
    decreases |tags|
  {
    var kv := pre + NodeRun(tags, dict) + post;
    if |tags| == 0 {
      assert kv[|pre|] == 0;
    } else {
      var head: seq<nat> := [dict[tags[0].key], dict[tags[0].value]];
      var pre' := pre + head;
      assert kv == pre' + NodeRun(tags[1..], dict) + post;
      ReadNodeRun(pre', tags[1..], post, dict, ss);
      assert kv[|pre|] == dict[tags[0].key] != 0;
      assert kv[|pre| + 1] == dict[tags[0].value];
      assert ReadRun(kv, |pre|) == [KeyVal(kv[|pre|], kv[|pre| + 1])] + ReadRun(kv, |pre'|);
      assert InternTags(tags, dict) == [KeyVal(dict[tags[0].key], dict[tags[0].value])] + InternTags(tags[1..], dict);
    }
  }

  /** Walking the encoded runs of `ns`, wherever they sit in the column, frames every node,
      gives each node exactly its own pairs, and stops right after the last terminator. */
  lemma {:induction false} WalkEncoded(pre: seq<nat>, ns: seq<Node>, post: seq<nat>, dict: Dict, ss: seq<string>)
    requires Interned(dict, ss) && NodesTagsInterned(ns, dict)
    ensures Framed(pre + EncodeNodesTags(ns, dict) + post, |pre|, |ns|)
    ensures WalkCursor(pre + EncodeNodesTags(ns, dict) + post, |pre|, |ns|)
            == |pre| + |EncodeNodesTags(ns, dict)|
    ensures forall i :: 0 <= i < |ns| ==>
      WalkRuns(pre + EncodeNodesTags(ns, dict) + post, |pre|, |ns|)[i] == InternTags(ns[i].tags, dict)
    decreases |ns|
  {
    if |ns| > 0 {
      var kv := pre + EncodeNodesTags(ns, dict) + post;
      var run := NodeRun(ns[0].tags, dict);
      var rest := EncodeNodesTags(ns[1..], dict);
      assert kv == pre + run + (rest + post);
      ReadNodeRun(pre, ns[0].tags, rest + post, dict, ss);
      assert NextRun(kv, |pre|) == |pre + run|;
      assert kv == (pre + run) + rest + post;
      WalkEncoded(pre + run, ns[1..], post, dict, ss);
      var runs := WalkRuns(kv, |pre|, |ns|);
      assert runs[1..] == WalkRuns(kv, |pre + run|, |ns| - 1);
      forall i | 0 <= i < |ns|
        ensures runs[i] == InternTags(ns[i].tags, dict)
      {
        if i > 0 {
          assert runs[i] == runs[1..][i - 1];
          assert ns[i] == ns[1..][i - 1];
        }
      }
    }
  }

  /** Decoding the output of `encodeNodesTags` with the cursor loop gives each node exactly its
      own tags in order and leaves the cursor at the end of the column. */
  lemma NodesTagsRoundTrip(ns: seq<Node>, dict: Dict, ss: seq<string>)
    requires Interned(dict, ss) && NodesTagsInterned(ns, dict)
    ensures var kv := EncodeNodesTags(ns, dict);
      && Framed(kv, 0, |ns|)
      && WalkCursor(kv, 0, |ns|) == |kv|
      && forall i :: 0 <= i < |ns| ==>
           var kvs := WalkRuns(kv, 0, |ns|)[i];
           (forall j :: 0 <= j < |kvs| ==> kvs[j].key < |ss| && kvs[j].val < |ss|)
           && ResolveTags(ss, kvs) == ns[i].tags
  {
    var kv := EncodeNodesTags(ns, dict);
    assert [] + kv + [] == kv;
    WalkEncoded([], ns, [], dict, ss);
    forall i | 0 <= i < |ns|
      ensures var kvs := WalkRuns(kv, 0, |ns|)[i];
        (forall j :: 0 <= j < |kvs| ==> kvs[j].key < |ss| && kvs[j].val < |ss|)
        && ResolveTags(ss, kvs) == ns[i].tags
    {
      ResolveInterned(ns[i].tags, dict, ss);
    }
  }
}

=== FILE: timestamps.dfy ===
/** The timestamp sentinel codec of marshal.go (`timeToUnix`, `timeToUnixPointer`, `unixToTime`,
    `unixToTimePointer`). A Go `time.Time` is modelled by its whole-second Unix value; any
    encoded value at or below zero means "no timestamp". */
module Timestamps {
  import opened Wrappers

  /** A wall-clock instant, as the number of seconds `t.Unix()` reports for it. */
  type Time = int

  /** `time.Time{}`, Go's zero time (1 January of year 1, UTC), as its Unix seconds. */
  const ZERO_TIME: Time := -62135596800

  /** What an instant becomes after it is encoded and decoded: itself when it lies after the
      epoch, otherwise the zero time. */
  function Settle(t: Time): Time
  {
    if t > 0 then t else ZERO_TIME
  }

  /** An optional instant after the pointer codec: kept when after the epoch, dropped otherwise. */
  function SettleOpt(c: Option<Time>): Option<Time>
  {
    if c.Some? && c.value > 0 then c else None
  }

  /** `unixToTime`: a non-positive value decodes to the zero time. */
  function UnixToTime(u: int): (t: Time)
    ensures t == ZERO_TIME <==> u <= 0
    ensures u > 0 ==> t == u
  {
    if u <= 0 then ZERO_TIME else u
  }

  /** `timeToUnix`: instants at or before the epoch all encode as the sentinel 0. */
  function TimeToUnix(t: Time): (u: int)
    ensures u >= 0
    ensures u == 0 <==> t <= 0
    ensures t > 0 ==> u == t
    ensures UnixToTime(u) == Settle(t)
  {
    if t <= 0 then 0 else t
  }

  /** `unixToTimePointer`: a non-positive value decodes to nil. */
  function UnixToTimePointer(u: int): (p: Option<Time>)
    ensures p == None <==> u <= 0
    ensures p.Some? ==> p.value == UnixToTime(u) && p.value > 0
  {
    if u <= 0 then None else Some(u)
  }

  /** `timeToUnixPointer`: instants at or before the epoch encode as nil. */
  function TimeToUnixPointer(t: Time): (p: Option<int>)
    ensures p == None <==> t <= 0
    ensures p.Some? ==> p.value == TimeToUnix(t) && UnixToTime(p.value) == t
  {
    if t <= 0 then None else Some(t)
  }

  /** The value a protobuf getter reports for an optional int64 field: zero when unset. */
  function GetOrZero(p: Option<int>): int
  {
    if p.Some? then p.value else 0
  }

  /** The `Committed` field's path through marshal and unmarshal: encoded with the pointer codec
      only when present, read back through the getter, decoded with the pointer codec. */
  lemma CommittedRoundTrip(c: Option<Time>)
    ensures UnixToTimePointer(GetOrZero(if c.Some? then TimeToUnixPointer(c.value) else None))
            == SettleOpt(c)
  {
  }

  /** The mandatory timestamp round-trips exactly for instants after the epoch, and every other
      instant comes back as the zero time rather than as itself. */
  lemma UnixRoundTrip(u: int)
    requires u > 0
    ensures TimeToUnix(UnixToTime(u)) == u
    ensures UnixToTimePointer(u).Some? && TimeToUnixPointer(UnixToTimePointer(u).value) == Some(u)
  {
  }

  lemma TimestampRoundTrip(t: Time)
    ensures t > 0 ==> UnixToTime(TimeToUnix(t)) == t
    ensures t <= 0 ==> UnixToTime(TimeToUnix(t)) == ZERO_TIME
  {
  }
}

=== FILE: wire.dfy ===
/** The integer columns of the protobuf messages (`osmpb`) that marshal.go fills. Unsigned
    wire fields are `nat`; a nil or unset repeated field is the empty sequence. */
module Wire {
  import opened Wrappers

  /** `osmpb.Info`. `committed` is the optional field (nil pointer = `None`). */
  datatype Info = Info(
    version: int,
    timestamp: int,
    visible: bool,
    committed: Option<int>,
    changesetId: int,
    userId: int,
    userSid: nat)

  datatype Node = Node(id: int, keys: seq<nat>, vals: seq<nat>, info: Info, lat: int, lon: int)

  /** `osmpb.DenseMembers`: per-member snapshot columns, aligned with the member list. */
  datatype DenseMembers = DenseMembers(
    versions: seq<int>,
    changesetIds: seq<int>,
    lats: seq<int>,
    lons: seq<int>)

  datatype Way = Way(
    id: int,
    keys: seq<nat>,
    vals: seq<nat>,
    info: Info,
    refs: seq<int>,
    denseMembers: Option<DenseMembers>)

  datatype Relation = Relation(
    id: int,
    keys: seq<nat>,
    vals: seq<nat>,
    info: Info,
    roles: seq<nat>,
    refs: seq<int>,
    types: seq<int>,
    denseMembers: Option<DenseMembers>)

  /** `osmpb.DenseInfo`: one column per `Info` field. */
  datatype DenseInfo = DenseInfo(
    versions: seq<int>,
    timestamps: seq<int>,
    committeds: seq<int>,
    visibles: seq<bool>,
    changesetIds: seq<int>,
    userIds: seq<int>,
    userSids: seq<int>)

  /** `osmpb.DenseNodes`; `keysVals` is the flat, zero-terminated tag run of all nodes. */
  datatype DenseNodes = DenseNodes(
    ids: seq<int>,
    denseInfo: DenseInfo,
    lats: seq<int>,
    lons: seq<int>,
    keysVals: seq<nat>)
}

=== FILE: wrappers.dfy ===
/** Option and Result: Go's nil pointers and (value, error) returns. */
module Wrappers {

  /** A Go pointer that may be nil: `None` is nil, `Some(v)` points at `v`. */
  datatype Option<+T> = None | Some(value: T)

  /** A Go `(value, error)` pair where exactly one side is meaningful. */
  datatype Result<+R, +E> = Success(value: R) | Failure(error: E)
}
